=== FILE: README.md ===
# Conversational AI demo front end: a Dafny model of its decision logic

This project models the decision logic of the web front end for Agora's Conversational AI demo: the agent page, the two SIP call pages, the metric table, the countdown in the card header, and the custom-agent configuration editor. Each React state update becomes a record update. Each handler is a pure function of the state and its inputs. HTTP replies, SDK outcomes and channel lookups are inputs.

The modules, one per concern:

- `Transcript` (transcript.dfy): the `onMessage` reducer that folds progressive speech-recognition messages into the transcript list. The three agent pages share it.
- `Session` (session.dfy): the agent page as a state machine. It covers join, start, heartbeat, the 1 s tick, stop, leave, the session-expiry timeout (HTTP 440) and the SDK callbacks. It also covers the page grid and the start request body.
- `SipEvents`, `SipInbound`, `SipOutbound` (sip_*.dfy): the 2 s buffer poll of the SIP pages. This includes event filtering, de-duplication by event id, the mapping to call states, the inbound lifecycle events, `tryToJoinChannel` and the outbound call start.
- `PhoneNumber` (phone_number.dfy): the call button's phone-number check. JavaScript's `Number()` is modelled by the StringNumericLiteral grammar of section 7.1.4.1 of the ECMAScript 2024 language specification.
- `Metrics` (metrics.dfy): the per-turn metric table. It groups samples by turn, matches stages case-insensitively, sorts the rows, builds the sorted column names and computes the row totals.
- `Countdown` (countdown.dfy): the `MM:SS` text in the card header, its display condition, and the 1 s countdown tick.
- `Json` (json.dfy): JSON values, JavaScript truthiness, object spread, and `String()` of a value. Spread covers a single key, a nested `params` key and a top-level field.
- `Asr`, `Llm`, `Tts`, `Avatar`, `Detection` (one file each): the sections of the configuration editor. Each has vendor defaults with their fallbacks and single-field edits that leave everything else alone. Detection also has the options each mode offers.
- `CustomAgent` (custom_agent.dfy): the editor itself. It covers:
  - the properties record built from the form;
  - importing a parsed record back into the form;
  - the MLLM toggle, reset, the JSON view and line numbers;
  - the editor as an event-driven machine, with its mode invariant.
- `Text`, `Wrappers`: string helpers (decimal text, lower case, split, join) and `Option`.

Where the code and its written description differ, the model follows the code:

- On the SIP pages, `joinChannel` catches its own errors. So only a failed channel lookup sets ERROR; a failed join does not.
- The call button runs the phone check as written. `SipOutbound.InitiateCallIntended` is the corrected button (see Findings).
- Agent-page handlers guard on a falsy agent id, so an empty id from the start reply counts as no agent for the heartbeat and the stop request. It still leaves the page started (`Session.EmptyAgentIdIsStuck`).
- The inbound poll returns early for an irrelevant or repeated buffer event. That early return also skips the lifecycle-event part of the same poll.
- `syncJsonToForm` sets the mode (line 540) and imports the ASR section before the `'style' in parsed.llm` test. That test throws on a truthy primitive `llm`, so a malformed document can leave the mode switch and the enable_mllm flag disagreeing. See `CustomAgent.HalfImportBreaksInv`.

## Model

| member | source | states |
|---|---|---|
| Transcript.Merge | src/components/Agent.tsx:183-201 | Empty list gives `[m]`. A repeated last text leaves the list unchanged, whether or not turn and speaker match. A new text for the last entry's turn and speaker replaces that entry. A new text for another slot is appended. The length grows by at most one, and every entry before the last is untouched. |
| Transcript.MergeIdempotent | src/components/Agent.tsx:187-198 | Delivering the same message twice gives the same list as delivering it once. |
| Transcript.MergeLastText | src/components/Agent.tsx:183-201 | After any merge the list is non-empty and its last entry carries the message's text. |
| Transcript.MergePreservesDistinctNeighbours | src/components/Agent.tsx:186-198 | Adjacent entries never share turn and speaker, and a merge keeps it that way. |
| Transcript.MergeAllShape | src/components/Agent.tsx:182-202 | Folding any message stream gives a list no longer than the stream. Adjacent entries are in different slots, and every entry comes from the stream. |
| Countdown.Tick | src/components/Agent.tsx:114-117 | null or a value ≤ 0 becomes 0, and n > 0 becomes n - 1. The result is never negative and never null. |
| Countdown.TicksReachZero | src/components/Agent.tsx:113-118 | Starting from n, the counter reads 0 after n ticks or more. |
| Countdown.HeaderCountdown | src/components/MainCardHeader.tsx:13-21 | The countdown is rendered exactly when the agent is started and the remaining time is non-null, and it shows the formatted time. |
| Countdown.PadStart2 | src/components/MainCardHeader.tsx:19 | `padStart(2, '0')`: the result has length max(2, \|s\|), ends with s, and is '0' before it. |
| Countdown.JsRem | src/components/MainCardHeader.tsx:19 | JavaScript `%`: the remainder takes the sign of the dividend. |
| Text.NatToString | src/components/MainCardHeader.tsx:19 | `String(n)` of a natural number is a non-empty digit string. It has one digit iff n < 10 and at most two iff n < 100. |
| Countdown.MinutesField | src/components/MainCardHeader.tsx:19 | For t ≥ 0 the minutes field is at least two digits and reads back as ⌊t / 60⌋. |
| Countdown.SecondsField | src/components/MainCardHeader.tsx:19 | For t ≥ 0 the seconds field is exactly two digits and reads back as t mod 60. |
| Countdown.Format | src/components/MainCardHeader.tsx:19 | For t ≥ 0 the text is at least five characters with a colon third from the end. The digits before it (MM) and the two after it (SS) give 60·MM + SS = t. |
| Countdown.FieldValue | src/components/MainCardHeader.tsx:19 | `String(n).padStart(2, '0')` is a digit string that reads back as n. |
| Countdown.FieldsAreDigits | src/components/MainCardHeader.tsx:19 | For t ≥ 0 both fields are digit strings. The minutes field has at least two characters. The seconds field has exactly two, and its value is below 60. |
| Countdown.FormatWidth | src/components/MainCardHeader.tsx:19 | For 0 ≤ t < 6000 the text is exactly five characters with the colon in the middle. |
| Countdown.FormatSplit | src/components/MainCardHeader.tsx:19 | The text splits at its only colon into the minutes field and the seconds field. |
| Countdown.FormatRoundTrip | src/components/MainCardHeader.tsx:19 | Reading back the digits before and after the colon gives 60·MM + SS = t, for every natural t. |
| PhoneNumber.AcceptedShape | src/components/SIP_Agent_Outbound.tsx:361 | Both the check as written and the corrected check accept only 11-character strings that start with '0'. |
| PhoneNumber.ValidPhoneAsWritten | src/components/SIP_Agent_Outbound.tsx:361 | The check as written: length 11, a leading '0', and `Number()` of the text is not NaN. Its properties are stated by AcceptedShape, ValidPhoneAccepted and the three counterexample lemmas. |
| PhoneNumber.ValidPhone | src/components/SIP_Agent_Outbound.tsx:361 | The corrected check: eleven decimal digits with a leading '0'. |
| PhoneNumber.DigitsAreNumeric | src/components/SIP_Agent_Outbound.tsx:361 | Every non-empty string of decimal digits passes `!isNaN(Number(s))`. |
| PhoneNumber.ValidPhoneAccepted | src/components/SIP_Agent_Outbound.tsx:361 | Every number the corrected check accepts, eleven digits with a leading '0', is also accepted as written. The correction rejects no real phone number. |
| PhoneNumber.HexNumberAccepted | src/components/SIP_Agent_Outbound.tsx:361 | "0x123456789" passes the check as written but is not eleven digits. |
| PhoneNumber.DecimalPointAccepted | src/components/SIP_Agent_Outbound.tsx:361 | "01234.56789" passes the check as written but is not eleven digits. |
| PhoneNumber.TrailingSpaceAccepted | src/components/SIP_Agent_Outbound.tsx:361 | "0123456789 " passes the check as written, because `Number()` trims white space. |
| Session.Initial | src/components/Agent.tsx:30-58 | The mounted page is not joined, has no agent, no remaining time, and satisfies the invariant. |
| Session.StopHeartbeat | src/components/Agent.tsx:121-131 | Both intervals are cleared and the remaining time is forgotten. Nothing else changes. |
| Session.LeaveChannel | src/components/Agent.tsx:290-299 | Afterwards the page is not joined and not started, with no agent id, no remote users, no metrics, no remaining time and no heartbeat. The transcripts and channel credentials are kept. |
| Session.HandleTimeout | src/components/Agent.tsx:308-315 | The heartbeat is stopped and the channel left. The page is not started and has no agent id, and the usage dialog is open. The transcripts are kept. |
| Session.StartAgent | src/components/Agent.tsx:216-253 | Without a route agent id or channel credentials nothing happens. A reply stores the returned agent id as it is, even an empty one, sets started and starts the heartbeat. A 440 failure is a timeout, and any other failure changes nothing. |
| Session.SendHeartbeat | src/components/Agent.tsx:82-99 | Without a held agent id (null or empty, the `!convoAgentId.current` guard) nothing happens. A reply sets the remaining time to the server's `secondsRemaining`. A 440 failure is a timeout, and any other failure changes nothing. |
| Session.TimerTick | src/components/Agent.tsx:113-118 | The tick changes only the remaining time, and only while the intervals run. The new value is non-negative, and a positive one decreases by one. |
| Session.StopAgent | src/components/Agent.tsx:255-270 | Without a held agent id (null or empty), or on a failed request, nothing happens. Otherwise the page is not started, has no agent id, no heartbeat and no remaining time, and the join state is kept. |
| Session.JoinChannel | src/components/Agent.tsx:272-288 | Joined afterwards iff already joined, or credentials exist and the SDK join succeeded. Nothing else changes. |
| Session.RemoveUid | src/components/Agent.tsx:175-178 | The user-left filter keeps exactly the other users, each as often as before (multiset minus every copy of uid), and never grows the list. |
| Session.RemoveUidAppend | src/components/Agent.tsx:175-178 | Filtering a concatenation is the concatenation of the filtered parts, so the other users keep their relative order. |
| Session.EndConversation | src/components/Agent.tsx:317-321 | Ending the conversation leaves the page not joined, not started, with no agent id and no remaining time, even when the stop request fails. The transcripts are kept. |
| Session.StepPreservesInv | src/components/Agent.tsx:216-315 | Every event keeps the invariant: the agent-id ref is set (non-null, possibly empty) iff started iff the heartbeat intervals run, and a remaining time exists only while they run. |
| Session.Step | src/components/Agent.tsx:175-321 | The event dispatch: each event runs its handler. Its contract is the invariant that StepPreservesInv and RunPreservesInv state about it. |
| Session.RunPreservesInv | src/components/Agent.tsx:82-131 | Any sequence of events keeps that invariant. |
| Session.EmptyAgentIdIsStuck | src/components/Agent.tsx:83 | A start reply with an empty agent id leaves the page started with the intervals running, while both the heartbeat and the stop request return early on the falsy id. Only leaving the channel clears `started`. |
| Session.CountdownOnlyWhileRunning | src/components/Agent.tsx:583 | Under the invariant, the header shows a countdown only while an agent is running and the heartbeat is set. |
| Session.ExpiryIsTimeout | src/components/Agent.tsx:92-94 | With a held agent id, a heartbeat or start that fails with 440 ends in exactly the timeout state. |
| Session.GridFor | src/components/Agent.tsx:393-399 | Three columns iff transcripts are shown and the layout has its own side panel. Two columns iff exactly one of those holds. One column otherwise. |
| Session.StartRequestFor | src/components/Agent.tsx:220-234 | A custom agent whose properties are non-null sends exactly those properties. Any other agent sends the selected language, or "" without one. Both carry the channel name. |
| SipEvents.Latest | src/components/SIP_Agent_Inbound.tsx:99-101 | A poll examines exactly the head of `bufferLogs`, and only when there is one. |
| SipInbound.Connect | src/components/SIP_Agent_Inbound.tsx:116-126 | A failed channel lookup sets ERROR. A successful one stores the credentials and marks the page joined. |
| SipInbound.ApplyBuffer | src/components/SIP_Agent_Inbound.tsx:107-133 | The event-to-state mapping. 'ringing' gives RINGING and records the caller. 'transfer_call' gives TRANSFERRED. Bridge start or call initiated gives CONNECTED, or ERROR exactly when the lookup fails. Bridge end or hang-up gives DISCONNECTED and not joined. Any other event changes nothing. |
| SipInbound.TryToJoin | src/components/SIP_Agent_Inbound.tsx:155-167 | This is a no-op when already joined or when the channel name is empty. Otherwise a failed lookup sets ERROR, and a successful one joins and keeps the call state. |
| SipInbound.ApplyLc | src/components/SIP_Agent_Inbound.tsx:135-151 | The head lifecycle event. START gives RINGING plus a join attempt, and ANSWERED gives CONNECTED plus a join attempt. TRANSFERED gives TRANSFERRED. HANGUP gives DISCONNECTED and leaves `joined` as it is. Any other state changes nothing. |
| SipInbound.Poll | src/components/SIP_Agent_Inbound.tsx:97-153 | If the head event is neither inbound nor 'transfer_call', the whole poll is abandoned, lifecycle part included. So is it if the head event repeats the last id. A relevant head event's id is recorded. |
| SipInbound.UnrecognisedRecordsId | src/components/SIP_Agent_Inbound.tsx:103-133 | A new, relevant but unrecognised event leaves the call state alone and still records its id. |
| SipInbound.ApplyLcIdempotent | src/components/SIP_Agent_Inbound.tsx:135-150 | Lifecycle events are not de-duplicated, yet applying one twice equals applying it once. |
| SipInbound.PollIdempotent | src/components/SIP_Agent_Inbound.tsx:104-105 | Receiving the same poll result twice equals receiving it once. |
| SipInbound.LcEventWins | src/components/SIP_Agent_Inbound.tsx:135-150 | Whatever the buffer event did, a recognised lifecycle event decides the final call state. A join attempt can turn it into ERROR. |
| SipOutbound.ApplyBuffer | src/components/SIP_Agent_Outbound.tsx:239-264 | 'call_ringing' gives RINGING, and 'transfer_call' gives TRANSFERRED. Bridge start or call answered gives CONNECTED with the credentials, or ERROR when the lookup fails. Bridge end or hang-up gives DISCONNECTED and not joined. Anything else changes nothing. |
| SipOutbound.Poll | src/components/SIP_Agent_Outbound.tsx:229-267 | An empty log, an event that is neither outbound nor 'transfer_call', or a repeated id changes nothing. Otherwise the id is recorded, and an unrecognised event changes nothing else. |
| SipOutbound.PollIdempotent | src/components/SIP_Agent_Outbound.tsx:236-237 | Receiving the same poll result twice equals receiving it once. |
| SipOutbound.BeginCall | src/components/SIP_Agent_Outbound.tsx:278-282 | Starting a call first sets INITIATED and starts the poll. Nothing else changes. |
| SipOutbound.FinishCall | src/components/SIP_Agent_Outbound.tsx:286-318 | A thrown request gives IDLE. `sipCallData` with success ≠ true gives NOT_ANSWERED and changes nothing else. Otherwise, including when `sipCallData` is absent, the credentials become `tokenData` and the state is CONNECTED. The page is then joined iff it was already joined, or `tokenData` is present and the join that the `[channelInfo]` effect runs succeeded. |
| SipOutbound.JoinEffect | src/components/SIP_Agent_Outbound.tsx:86-93 | The `[channelInfo]` effect: with credentials, a successful SDK join marks the page joined, and nothing else changes. |
| SipOutbound.StartCall | src/components/SIP_Agent_Outbound.tsx:269-322 | After a call start the poll runs. The state is IDLE, NOT_ANSWERED or CONNECTED. IDLE and NOT_ANSWERED keep the old credentials and join state. |
| SipOutbound.InitiateCall | src/components/SIP_Agent_Outbound.tsx:359-365 | The call button as written: a call starts iff the number passes the check at line 361 (`!isNaN(Number(phone))` with length 11 and a leading '0'). Otherwise nothing changes. |
| SipOutbound.InitiateCallIntended | src/components/SIP_Agent_Outbound.tsx:359-365 | The corrected button: a call starts iff the number is eleven decimal digits with a leading '0'. |
| SipOutbound.InitiateCallAgrees | src/components/SIP_Agent_Outbound.tsx:361 | The two buttons behave the same on every real phone number, and on every string the written check rejects. |
| SipOutbound.HexNumberStartsCall | src/components/SIP_Agent_Outbound.tsx:361 | As written, "0x123456789" starts a call. The corrected button ignores it. |
| SipOutbound.StartThenHangup | src/components/SIP_Agent_Outbound.tsx:239-264 | Whatever the start reply, a new outbound 'call_hangup' in the next poll ends the call DISCONNECTED and out of the channel, with the poll still running and the event id recorded. |
| Metrics.StageOf | src/components/MetricList.tsx:38-39 | A module is ASR, LLM or TTS iff its lower-cased name is "asr", "llm" or "tts". |
| Metrics.StageOfIgnoresCase | src/components/MetricList.tsx:38 | A module name and its lower-case form select the same stage. |
| Metrics.Assign | src/components/MetricList.tsx:43 | Storing a latency makes that name read the new value and leaves every other name alone. It adds a property only if the name was new. |
| Metrics.AssignSum | src/components/MetricList.tsx:142-144 | Overwriting a latency changes the stage sum by the difference, and a new name adds its latency. |
| Metrics.Put | src/components/MetricList.tsx:40-43 | Storing a stage object changes that stage only and keeps the turn id. |
| Metrics.Record | src/components/MetricList.tsx:31-45 | One reduce step makes sure the sample's turn exists and leaves every other turn unchanged. A sample of an unknown module adds at most an empty row. |
| Metrics.GroupTurns | src/components/MetricList.tsx:31-36 | A turn has a row iff some sample carries its id, whatever the module, and each row knows its turn. |
| Metrics.CellRecorded | src/components/MetricList.tsx:43 | After a step, the cell the sample targets holds the sample's latency. |
| Metrics.CellUnchanged | src/components/MetricList.tsx:40-43 | A step leaves every cell it does not target unchanged. |
| Metrics.GroupCellPresent | src/components/MetricList.tsx:31-46 | A cell of the table holds a value iff some sample targets it. |
| Metrics.GroupCellLast | src/components/MetricList.tsx:43 | A cell holds the latency of the last sample that targets it: later samples overwrite earlier ones. |
| Metrics.InsertInt | src/components/MetricList.tsx:48 | Inserting into an ascending list keeps it strictly ascending and adds exactly the new element. |
| Metrics.SortedTurns | src/components/MetricList.tsx:48 | The turn ids are strictly ascending and are exactly the ids of the samples. |
| Metrics.Rows | src/components/MetricList.tsx:48 | The rows are in strictly ascending turn order. |
| Metrics.RowsAreTheTable | src/components/MetricList.tsx:48 | Every grouped turn appears among the rows, and every row is a grouped turn. |
| Metrics.LexIrreflexive | src/components/MetricList.tsx:58 | The default string order never puts a name before itself. |
| Metrics.LexAsymmetric | src/components/MetricList.tsx:58 | The default string order never puts two names before each other. |
| Metrics.LexTransitive | src/components/MetricList.tsx:58 | The default string order is transitive. |
| Metrics.LexTotal | src/components/MetricList.tsx:58 | Any two distinct names are ordered one way or the other. |
| Metrics.InsertName | src/components/MetricList.tsx:52-58 | Adding a name to the set keeps the list sorted and adds exactly that name. |
| Metrics.Names | src/components/MetricList.tsx:55 | `Object.keys` lists exactly the names with a value. |
| Metrics.InsertNames | src/components/MetricList.tsx:53-57 | Adding names keeps the list sorted and adds exactly those names. |
| Metrics.ColumnNames | src/components/MetricList.tsx:51-59 | A stage's column list is sorted. A name is in it iff some row's stage object holds that name. |
| Metrics.ColumnNamesDistinct | src/components/MetricList.tsx:52 | Each column name appears once. |
| Metrics.RecordTotal | src/components/MetricList.tsx:141-145 | A step changes a row's total, the sum over its three stages, by the new latency minus the value it overwrites, 0 when the cell was empty. A sample of an unknown module leaves the total unchanged. |
| Text.ToLowerAscii | src/components/MetricList.tsx:38 | Lower-casing keeps the length and maps each character independently. |
| Text.Join | src/components/CustomAgent/Custom_LLM.tsx:156 | Joining no parts gives "", and one part gives that part. Otherwise the length is the parts' total length plus one separator per gap, and the text starts with the first part and a separator. Text.SplitJoin proves the rest: splitting recovers the parts. |
| Text.Split | src/components/CustomAgent/CustomAgent.tsx:689 | Splitting at c gives one more piece than there are c's, and no piece contains c. |
| Text.JoinSplit | src/components/CustomAgent/CustomAgent.tsx:689 | Joining the pieces of a split with the separator gives back the text. |
| Text.SplitJoin | src/components/CustomAgent/CustomAgent.tsx:688-691 | Splitting a join of separator-free pieces gives back the pieces. |
| Asr.DefaultFor | src/components/CustomAgent/Custom_ASR.tsx:68-80 | ares, deepgram and microsoft each select a default whose vendor field is that name. Any other name selects the Ares default. |
| Asr.ChangeVendor | src/components/CustomAgent/Custom_ASR.tsx:65-82 | The selector keeps the chosen name, even an unknown one, and the config becomes that name's default. |
| Asr.ChangeVendorForgets | src/components/CustomAgent/Custom_ASR.tsx:81 | A vendor change replaces the whole config: the result does not depend on the old form. |
| Asr.EditLanguage | src/components/CustomAgent/Custom_ASR.tsx:110 | The Ares language edit sets `language` and changes no other field or the vendor. |
| Asr.LanguageShown | src/components/CustomAgent/Custom_ASR.tsx:109-110 | The language input shows what was typed, or 'en-US' once it is cleared. |
| Asr.EditParam | src/components/CustomAgent/Custom_ASR.tsx:123-126 | A Deepgram or Microsoft param edit sets that param. It keeps the other params, the vendor field and the selector. |
| Llm.DefaultFor | src/components/CustomAgent/Custom_LLM.tsx:136-152 | 'google' and 'gemini' select style 'gemini'. 'anthropic' selects style 'anthropic' with max_tokens 1024, and 'dify' selects style 'dify'. Any other type selects the OpenAI default, which has no style. |
| Llm.ChangeType | src/components/CustomAgent/Custom_LLM.tsx:133-154 | The selector keeps the chosen type and the config becomes its default. |
| Llm.ContentText | src/components/CustomAgent/Custom_LLM.tsx:156 | A null message gives nothing, since reading its `content` throws. Any other message that is not an object shows "", and so does a missing or null content. Any other content shows as `String()` writes it. The result is missing iff the message is null or its content is one whose `String()` gives nothing in `Json.ToText`: an object with its own `toString` key, or a number the model does not render, alone or inside an array. |
| Llm.ContentTexts | src/components/CustomAgent/Custom_LLM.tsx:156 | Reading every message's `content` succeeds iff each one can be read, and it gives one text per message, in order. |
| Llm.SystemPrompt | src/components/CustomAgent/Custom_LLM.tsx:156 | With no system messages, null or an empty list, the prompt shown is "". For a list, a prompt is shown iff every message's content renders; only a null message, or a content whose `String()` gives nothing in `Json.ToText`, stops it. When no content contains a newline, splitting the shown text at newlines gives back the contents in order. |
| Llm.ListWithoutNullShows | src/components/CustomAgent/Custom_LLM.tsx:156 | Any list without a null message shows a prompt when no content is a number, an array, or an object with its own `toString` key. |
| Llm.OneMessage | src/components/CustomAgent/Custom_LLM.tsx:156 | A one-message list shows that message's content text. |
| Llm.PrimitiveMessageShowsEmpty | src/components/CustomAgent/Custom_LLM.tsx:156 | `["hi"]` and `[5]` show "", because a primitive has no `content`. |
| Llm.ScalarContentShows | src/components/CustomAgent/Custom_LLM.tsx:156 | A content of 5 shows "5", and a content of true shows "true". |
| Llm.ArrayContentShows | src/components/CustomAgent/Custom_LLM.tsx:156 | A content of `["a", null, "b"]` shows "a,,b", as `String()` of an array joins its elements with ",". |
| Llm.NullMessageShowsNothing | src/components/CustomAgent/Custom_LLM.tsx:156 | `[null]` shows nothing, because the source throws reading `null.content`. |
| Llm.ToStringKeyShowsNothing | src/components/CustomAgent/Custom_LLM.tsx:156 | A content `{"toString": 1}` shows nothing, because `String()` throws on it. A content `{"valueOf": 1}` shows "[object Object]". |
| Llm.FractionShowsNothing | src/components/CustomAgent/Custom_LLM.tsx:156 | A content `[1.5]` shows nothing in the model, because fractions are not rendered. |
| Json.ToText | src/components/CustomAgent/Custom_LLM.tsx:156 | `String(v)` renders null, booleans and strings, and a string as itself. An object renders as "[object Object]" iff it has no own `toString` key; with one, `String()` throws. A number renders iff it is a whole number below 10^21 in magnitude. An array renders iff each of its elements does when joined. |
| Llm.EditSystemPrompt | src/components/CustomAgent/Custom_LLM.tsx:196 | Editing the prompt makes the list exactly one system message with the text, and changes no other field. |
| Llm.SystemPromptRoundTrip | src/components/CustomAgent/Custom_LLM.tsx:194-196 | After typing s into the prompt, the text area shows s. |
| Llm.EditField | src/components/CustomAgent/Custom_LLM.tsx:185 | A greeting, failure-message, max_history or api_key edit sets its field and no other. |
| Llm.EditModel | src/components/CustomAgent/Custom_LLM.tsx:242-245 | A model edit sets `params.model` and keeps the other params and every other field. |
| Llm.ProviderDecidesApiKey | src/components/CustomAgent/Custom_LLM.tsx:224-235 | After choosing a provider, the API key input is offered iff it is openai, anthropic or dify, and it then holds the "<YOUR_KEY>" placeholder. Field, prompt and model edits never change whether it is offered. |
| Tts.DefaultFor | src/components/CustomAgent/Custom_TTS.tsx:133-151 | Each of the five known vendors selects a default whose vendor field is that name. Anything else selects Microsoft's. |
| Tts.ChangeVendor | src/components/CustomAgent/Custom_TTS.tsx:130-153 | The selector keeps the chosen name and the whole config is replaced by its default. |
| Tts.UnknownVendorMismatch | src/components/CustomAgent/Custom_TTS.tsx:149-150 | After an unknown vendor, the selector shows that name while the config is Microsoft's. |
| Tts.EditParam | src/components/CustomAgent/Custom_TTS.tsx:185-188 | A param edit sets that param. It keeps the other params, every other field and the selector. |
| Tts.EditCartesiaVoice | src/components/CustomAgent/Custom_TTS.tsx:403-411 | The Cartesia voice edit always writes `{mode: "id", id}` and keeps the other params. |
| Tts.CartesiaVoiceShown | src/components/CustomAgent/Custom_TTS.tsx:402-411 | After typing a voice id, the input shows it. |
| Avatar.DefaultFor | src/components/CustomAgent/Custom_Avatar.tsx:69 | 'akool' selects Akool and every other name selects HeyGen. Both start with enable = false. |
| Avatar.ChangeVendor | src/components/CustomAgent/Custom_Avatar.tsx:67-71 | A vendor change replaces the config and leaves the avatar disabled. |
| Avatar.SetEnable | src/components/CustomAgent/Custom_Avatar.tsx:93-94 | The enable switch sets `enable` and nothing else, and the switch then shows the new position. |
| Avatar.EditParam | src/components/CustomAgent/Custom_Avatar.tsx:108-111 | A param edit sets that param. It keeps the vendor, the enable state, the other params and every other field. |
| Avatar.VendorDecidesHeyGenParams | src/components/CustomAgent/Custom_Avatar.tsx:66-70 | After choosing a vendor, the HeyGen-only inputs are offered iff it is "heygen", and then quality reads "medium" and the idle timeout 60. Every name other than "akool" selects the HeyGen config. |
| Detection.TypeOptions | src/components/CustomAgent/Custom_Detection.tsx:46-54 | agora_vad is always offered. server_vad and semantic_vad are offered iff in MLLM mode. |
| Detection.InterruptModeOptions | src/components/CustomAgent/Custom_Detection.tsx:72-80 | 'interrupt' is always offered. 'append' and 'ignore' are offered iff not in MLLM mode. |
| Detection.ChangeType | src/components/CustomAgent/Custom_Detection.tsx:34-39 | The type is set. Eagerness becomes 'auto' for server_vad and semantic_vad and is otherwise kept, absent included. Every other field is unchanged. |
| Detection.ServerSideTypeShowsAuto | src/components/CustomAgent/Custom_Detection.tsx:86 | After choosing a server-side type, the eagerness selector is shown and reads 'auto'. |
| Detection.TypeDecidesControls | src/components/CustomAgent/Custom_Detection.tsx:86-188 | After choosing a type, the sliders are shown iff it is not semantic_vad, the response switches iff it is not agora_vad, and eagerness iff it is server-side. A single-field edit other than the type leaves the sliders and switches as they were. |
| Detection.EditSetting | src/components/CustomAgent/Custom_Detection.tsx:62-235 | A turn-detection control (interrupt mode, eagerness, a slider or a response switch) or a general parameter (data channel, metrics, error messages) sets its field and no other. |
| Detection.InterruptResponseStuckOn | src/components/CustomAgent/Custom_Detection.tsx:178-182 | As written, after the switch stores false, it still reads on. |
| Detection.InterruptResponseFollowsSwitch | src/components/CustomAgent/Custom_Detection.tsx:178-182 | With the default applied only to a missing value, the switch shows what it last stored. |
| Detection.CreateResponseFollowsSwitch | src/components/CustomAgent/Custom_Detection.tsx:167-171 | The create-response switch shows what it last stored. |
| Detection.EditSilence | src/components/CustomAgent/Custom_Detection.tsx:257-262 | A silence edit sets the edited field. Every other silence field keeps its existing value and takes the inline fallback only where there is none. Parameters outside silence_config are unchanged. |
| Detection.EditSilenceTimeout | src/components/CustomAgent/Custom_Detection.tsx:255-262 | The timeout slider sets timeout_ms and touches no other parameter. |
| Detection.EditSilenceAction | src/components/CustomAgent/Custom_Detection.tsx:271-279 | The action selector sets action and touches no other parameter. |
| Detection.EditSilenceContent | src/components/CustomAgent/Custom_Detection.tsx:296-304 | The content input sets content and touches no other parameter. |
| Detection.SilenceFallbacks | src/components/CustomAgent/Custom_Detection.tsx:255-304 | For each of the three edits, the other two fields keep existing values. Otherwise they get that edit's inline fallbacks: speak and '' for the timeout edit, 0 and '' for the action edit, 1000 and speak for the content edit. |
| Detection.SilenceEditable | src/components/CustomAgent/Custom_Detection.tsx:241 | The silence section is shown only outside MLLM mode and when a silence config exists. |
| Detection.SilenceStaysEditable | src/components/CustomAgent/Custom_Detection.tsx:241-304 | Outside MLLM mode, each of the three silence edits leaves the section shown, because each writes a silence config object. |
| CustomAgent.FeaturesValue | src/components/CustomAgent/CustomAgent.tsx:489 | The features object carries the three flags as they are, undefined ones dropped. |
| CustomAgent.Properties | src/components/CustomAgent/CustomAgent.tsx:482-501 | In MLLM mode the record has mllm and none of asr, llm, tts or avatar. In cascading mode it has those four and no mllm. Detection, parameters and features are copied unchanged. The record always carries the placeholder channel, token, agent_rtc_uid and remote_rtc_uids, with enable_string_uid = false and idle_timeout 30. |
| CustomAgent.Common | src/components/CustomAgent/CustomAgent.tsx:483-490 | The part both modes share: the fixed placeholders, idle_timeout 30, detection, parameters and features, and no section. |
| CustomAgent.Fixed | src/components/CustomAgent/CustomAgent.tsx:407-413 | The fixed values: the placeholder channel, token, agent_rtc_uid and remote_rtc_uids, and no section. |
| CustomAgent.SyncFormToJson | src/components/CustomAgent/CustomAgent.tsx:482-508 | The text becomes the record, the form is valid with no error, and nothing else changes. |
| CustomAgent.ToggleMllm | src/components/CustomAgent/CustomAgent.tsx:510-529 | The switch sets the mode, enable_mllm = c and the other two flags to false. The tab becomes "mllm" or "asr" and the text the matching placeholder. The sections are kept. |
| CustomAgent.Reset | src/components/CustomAgent/CustomAgent.tsx:650-673 | Every vendor, config, detection, parameter and feature returns to its default, with cascading mode, the ASR tab and the placeholder text. Validity, error and the view are kept. |
| CustomAgent.Fail | src/components/CustomAgent/CustomAgent.tsx:592-595 | The catch branch marks the form invalid with an "Invalid JSON: " message. |
| CustomAgent.SyncJsonToForm | src/components/CustomAgent/CustomAgent.tsx:531-596 | A parse failure records its message and marks the form invalid. A null document does the same with the TypeError of reading a property of null. |
| CustomAgent.ImportAsr | src/components/CustomAgent/CustomAgent.tsx:535-547 | The steps before the `in` test: the mode becomes "mllm present and no cascading section". A present ASR section replaces the form's, with its vendor as the selector. Nothing else changes. |
| CustomAgent.ImportRest | src/components/CustomAgent/CustomAgent.tsx:549-573 | Each of llm, tts, avatar, turn detection, parameters and mllm that is present replaces the form's, and an absent one keeps it. The LLM selector follows its style. |
| CustomAgent.ImportFeatures | src/components/CustomAgent/CustomAgent.tsx:575-591 | The features become the imported flags. The mode and tab follow enable_mllm's truthiness, and the form is valid with no error. Nothing else changes. |
| CustomAgent.LlmTypeOf | src/components/CustomAgent/CustomAgent.tsx:549-555 | An imported LLM section without `style` selects 'openai'. A string style selects exactly that style. Any other style reads as "". |
| CustomAgent.ImportedMode | src/components/CustomAgent/CustomAgent.tsx:575-591 | On a successful import, mode and tab follow `advanced_features.enable_mllm` alone, overriding line 540. The form is valid, and the text and view are kept. |
| CustomAgent.ImportedCascading | src/components/CustomAgent/CustomAgent.tsx:542-568 | Each cascading section present in the document replaces the form's, and an absent one is kept. |
| CustomAgent.ImportedShared | src/components/CustomAgent/CustomAgent.tsx:570-573 | The same holds for turn detection, parameters and mllm. |
| CustomAgent.JsonChange | src/components/CustomAgent/CustomAgent.tsx:598-617 | The typed text is kept. The form is valid iff it parses, and the error shows the parse message otherwise. |
| CustomAgent.ToggleJsonView | src/components/CustomAgent/CustomAgent.tsx:619-628 | Opening the JSON view writes the form out, and closing it reads the text back. The view flag follows the switch. |
| CustomAgent.LineNumbers | src/components/CustomAgent/CustomAgent.tsx:688-691 | The line numbers are 1..k, where k is the number of newlines plus one. |
| CustomAgent.CreateAgent | src/components/CustomAgent/CustomAgent.tsx:738-744 | In form view the agent gets the form's record. In JSON view it gets exactly the parsed text, and nothing when the parse throws. |
| CustomAgent.InitialInv | src/components/CustomAgent/CustomAgent.tsx:446-477 | The initial form satisfies the invariant: mode iff enable_mllm is truthy, and every section truthy. |
| CustomAgent.StepPreservesInv | src/components/CustomAgent/CustomAgent.tsx:482-673 | Every editor event keeps the invariant, except the import that throws half-way. |
| CustomAgent.Step | src/components/CustomAgent/CustomAgent.tsx:482-673 | The editor's event dispatch: each form control's handler. Its contract is the invariant that StepPreservesInv and RunPreservesInv state about it. |
| CustomAgent.JsonViewKeepsInv | src/components/CustomAgent/CustomAgent.tsx:575-588 | Closing the JSON view keeps the invariant, except when the import throws half-way. |
| CustomAgent.ImportKeepsInv | src/components/CustomAgent/CustomAgent.tsx:540-591 | An import that gets past the `in` test keeps the invariant. Every section it takes over is truthy, and the mode follows enable_mllm. |
| CustomAgent.FailedImportKeepsInv | src/components/CustomAgent/CustomAgent.tsx:531-596 | An import that fails at once, from a parse error or a null document, keeps the invariant. |
| CustomAgent.FormEventKeepsInv | src/components/CustomAgent/CustomAgent.tsx:510-529 | The MLLM toggle, a JSON edit, reset and a tab change keep the invariant. |
| CustomAgent.AsrEventKeepsInv | src/components/CustomAgent/Custom_ASR.tsx:65-82 | ASR edits keep the invariant. |
| CustomAgent.LlmEventKeepsInv | src/components/CustomAgent/Custom_LLM.tsx:133-154 | LLM edits keep the invariant, and the LLM section stays an object. |
| CustomAgent.TtsEventKeepsInv | src/components/CustomAgent/Custom_TTS.tsx:130-153 | TTS edits keep the invariant. |
| CustomAgent.AvatarEventKeepsInv | src/components/CustomAgent/Custom_Avatar.tsx:67-71 | Avatar edits keep the invariant. |
| CustomAgent.SettingsEventKeepsInv | src/components/CustomAgent/Custom_Advanced.tsx:24-39 | Detection, parameter, silence and aivad/rtm feature edits keep the invariant. The feature switches keep enable_mllm. |
| CustomAgent.RunPreservesInv | src/components/CustomAgent/CustomAgent.tsx:467-475 | Any run of events without a half-way import keeps the mode switch and enable_mllm in agreement. |
| CustomAgent.HalfImportBreaksInv | src/components/CustomAgent/CustomAgent.tsx:540-555 | In MLLM mode, a document whose `llm` is a truthy primitive switches to cascading mode before the `in` test throws, while enable_mllm stays truthy. |
| CustomAgent.PrimitiveLlmBreaksInv | src/components/CustomAgent/CustomAgent.tsx:540-550 | A concrete run does this: switch to MLLM, type `{"llm": 5}`, leave the JSON view. |
| CustomAgent.TypedPrimitiveLlmBreaksInv | src/components/CustomAgent/CustomAgent.tsx:540-550 | From any MLLM-mode form, typing any document whose `llm` is a truthy primitive keeps the invariant, and leaving the JSON view then breaks it. |
| CustomAgent.JsonViewRoundTrip | src/components/CustomAgent/CustomAgent.tsx:619-628 | Opening and closing the JSON view without edits restores every section, the features and the mode. In cascading mode the selectors are re-derived from the configs. |

## Left out

- HTTP, the RTC/RTM SDKs, toasts, dialogs, navigation and `window.location.reload` are left out: replies, lookups and SDK outcomes are inputs.
- Timers and asynchronous interleaving are left out. Every handler is one atomic step, so overlapping polls and stale closures are not modelled. Examples are the `isJoined` read in `tryToJoinChannel` and the `channelInfo` read in the SIP pages' `joinChannel`. Repeated call starts add intervals, which only matters for timing.
- Agent.tsx `startOutboundCall` is left out: it posts a request and toggles a busy flag around it. So are the video-track callbacks, mute toggles, the RTM metadata list and `fetchAgentDetails`. All of these only relay SDK or HTTP results.
- The SIP pages' `stopAgent`, `leaveChannel`, `handleEndConversation` and `handleResetCall` are left out. They repeat the agent page's handlers, which are modelled, without the heartbeat, and end in a page reload.
- `JSON.parse` and `JSON.stringify` are abstracted. Text from stringifying a value is kept as that value, and the parse of typed text is an input. Engine error messages are a single placeholder text.
- `formatJson`, `minifyJson` and `copyToClipboard` only re-render or copy the text, so they are left out.
- handleJsonChange's read-only-field copy is left out: it is computed and never used.
- Spreading a non-object (a string or an array) is modelled as spreading `{}`. Editors only see such values after a malformed JSON import.
- A non-string vendor or style in an imported document is read as "".
- Llm.SystemPrompt: a number content is rendered only when it is a whole number below 10^21 in magnitude. `String()` of a fraction, or exponent notation, is not modelled. A list with such a content gives no prompt, whether the number is the content itself or an element of an array content.
- Numbers are reals: float rounding, `toFixed` and slider ranges are not modelled. Metric latencies and seconds are integers.
- Lower-casing covers ASCII letters only. String sorting compares characters by code point, which matches JavaScript's code-unit order below U+10000.
- Custom_MLLM.tsx field bindings are left out; they are plain field sets. Custom_Advanced.tsx is modelled only through its two feature switches.
- AgentControls.tsx, SipInboundControls.tsx and SipOutboundControls.tsx (button visibility) are left out, along with their quirks. `SipInboundControls.tsx:46` shows Reset only on DISCONNECTED, because `&&` binds tighter than `||`. `AgentControls.tsx:81` treats an empty language list as "language required".
- The `[channelInfo]` join effect of the SIP pages is modelled only after the outbound call start (`SipOutbound.JoinEffect`). Everywhere else the credentials are stored by a handler that already sets `joined` itself, so the effect's join cannot change the modelled state.
- The phone check also appears at Agent.tsx:503-509 on the agent page's SIP layout. Only the SIP outbound page's copy is modelled.
- CustomAgent.StepPreservesInv: excludes the import whose `llm` is a truthy primitive. The code throws there after the mode was already set, so the invariant fails; `CustomAgent.HalfImportBreaksInv` proves that it does.
- Metrics.Lookup has no contract of its own: it is the first match in the insertion-ordered property list, and `Metrics.Assign` states its behaviour.

## Findings

| source | as written | input that shows it | evidently intended | confidence | as-written member | corrected member |
|---|---|---|---|---|---|---|
| src/components/SIP_Agent_Outbound.tsx:361 | `length === 11 && startsWith('0') && !isNaN(Number(phone))` accepts any numeric literal of that shape | "0x123456789" (also "01234.56789" and "0123456789 ") | eleven decimal digits with a leading '0', as the error message says | not executed | PhoneNumber.HexNumberAccepted | PhoneNumber.ValidPhoneAccepted |
| src/components/CustomAgent/Custom_Detection.tsx:178 | the interrupt-response switch shows `interrupt_response \|\| true`, which is always on | switch turned off: `interrupt_response` is false, the switch still shows on | default to on only when the field is missing (`?? true`) | not executed | Detection.InterruptResponseStuckOn | Detection.InterruptResponseFollowsSwitch |

=== FILE: asr.dfy ===
/** The speech-recognition section of the configuration editor. */
module Asr {
  import opened Wrappers
  import opened Json

  const DefaultAres := Obj(map["vendor" := Str("ares"), "language" := Str("en-US")])

  const DefaultDeepgram := Obj(map[
    "vendor" := Str("deepgram"),
    "params" := Obj(map["url" := Str("<YOUR_URL>"), "key" := Str("<YOUR_KEY>"), "model" := Str("nova-2"), "language" := Str("en")])])

  const DefaultMicrosoft := Obj(map[
    "vendor" := Str("microsoft"),
    "params" := Obj(map[
      "key" := Str("<YOUR_KEY>"), "region" := Str("eastus"), "language" := Str("en-US"),
      "phrase_list" := Arr([Str("agora"), Str("conversational"), Str("ai"), Str("engine")])])])

  /** The selected vendor name and the config the form edits. */
  datatype Form = Form(vendor: string, config: Value)

  /** The default a vendor choice selects; any unknown name falls back to Ares. */
  function DefaultFor(vendor: string): (cfg: Value)
    ensures cfg.Obj?
    ensures vendor in {"ares", "deepgram", "microsoft"} ==> Field(cfg, "vendor") == Some(Str(vendor))
    ensures vendor !in {"ares", "deepgram", "microsoft"} ==> cfg == DefaultAres
  {
    match vendor
    case "ares" => DefaultAres
    case "deepgram" => DefaultDeepgram
    case "microsoft" => DefaultMicrosoft
    case _ => DefaultAres
  }

  /** handleAsrVendorChange: the selector keeps the chosen name, the config is replaced wholesale. */
  function ChangeVendor(f: Form, vendor: string): (r: Form)
    ensures r.vendor == vendor
    ensures r.config == DefaultFor(vendor)
  {
    Form(vendor, DefaultFor(vendor))
  }

  /** No earlier config survives a vendor change. */
  lemma ChangeVendorForgets(f: Form, g: Form, vendor: string)
    ensures ChangeVendor(f, vendor) == ChangeVendor(g, vendor)
  {
  }

  /** The Ares language input: `{...config, language}`. */
  function EditLanguage(f: Form, language: string): (r: Form)
    ensures r.vendor == f.vendor
    ensures Field(r.config, "language") == Some(Str(language))
    ensures forall k :: k != "language" ==> Field(r.config, k) == Field(f.config, k)
  {
    f.(config := WithField(f.config, "language", Str(language)))
  }

  /** The Ares language the input shows: `config.language || 'en-US'`. */
  function ShownLanguage(f: Form): string {
    StrOf(Some(Or(Field(f.config, "language"), Str("en-US"))))
  }

  /** What is typed is what is shown, except that clearing the input shows the fallback. */
  lemma LanguageShown(f: Form, language: string)
    ensures ShownLanguage(EditLanguage(f, language)) == if language == "" then "en-US" else language
  {
  }

  /** A Deepgram or Microsoft param input (url, key, model, region, language): `params: {...params, [k]: value}`. */
  function EditParam(f: Form, k: string, value: string): (r: Form)
    ensures r.vendor == f.vendor
    ensures Param(r.config, k) == Some(Str(value))
    ensures forall k2 :: k2 != k ==>
      Param(r.config, k2) == Param(f.config, k2)
    ensures Field(r.config, "vendor") == Field(f.config, "vendor")
  {
    f.(config := WithParam(f.config, k, Str(value)))
  }
}

=== FILE: avatar.dfy ===
/** The avatar section of the configuration editor. */
module Avatar {
  import opened Wrappers
  import opened Json

  const DefaultAkool := Obj(map[
    "vendor" := Str("akool"),
    "enable" := Bool(false),
    "params" := Obj(map[
      "api_key" := Str("<akool_key>"), "agora_uid" := Str("<avatar_rtc_uid>"),
      "agora_token" := Str("<avatar_rtc_token>"), "avatar_id" := Str("<akool_avatar_id>")])])

  const DefaultHeyGen := Obj(map[
    "vendor" := Str("heygen"),
    "enable" := Bool(false),
    "params" := Obj(map[
      "api_key" := Str("<heygen_key>"), "quality" := Str("medium"),
      "agora_uid" := Str("<avatar_rtc_uid>"), "agora_token" := Str("<avatar_rtc_token>"),
      "avatar_id" := Str(""), "disable_idle_timeout" := Bool(false), "activity_idle_timeout" := Num(60.0)])])

  /** The selected vendor name and the config the form edits. */
  datatype Form = Form(vendor: string, config: Value)

  /** 'akool' selects Akool; every other name selects HeyGen. Either default starts disabled. */
  function DefaultFor(vendor: string): (cfg: Value)
    ensures cfg.Obj?
    ensures Field(cfg, "vendor") == Some(Str(if vendor == "akool" then "akool" else "heygen"))
    ensures Field(cfg, "enable") == Some(Bool(false))
  {
    if vendor == "akool" then DefaultAkool else DefaultHeyGen
  }

  /** handleAvatarVendorChange. */
  function ChangeVendor(f: Form, vendor: string): (r: Form)
    ensures r.vendor == vendor && r.config == DefaultFor(vendor)
    ensures !Enabled(r)
  {
    Form(vendor, DefaultFor(vendor))
  }

  /** What the enable switch shows: `enable || false`. */
  predicate Enabled(f: Form) {
    Truthy(Field(f.config, "enable"))
  }

  /** The enable switch: only `enable` changes. */
  function SetEnable(f: Form, on: bool): (r: Form)
    ensures r.vendor == f.vendor
    ensures Field(r.config, "enable") == Some(Bool(on))
    ensures forall k :: k != "enable" ==> Field(r.config, k) == Field(f.config, k)
    ensures Enabled(r) == on
  {
    f.(config := WithField(f.config, "enable", Bool(on)))
  }

  /** The api_key, avatar_id, quality, disable_idle_timeout and activity_idle_timeout inputs. */
  function EditParam(f: Form, k: string, v: Value): (r: Form)
    ensures r.vendor == f.vendor
    ensures Param(r.config, k) == Some(v)
    ensures forall k2 :: k2 != k ==> Param(r.config, k2) == Param(f.config, k2)
    ensures forall k2 :: k2 != "params" ==> Field(r.config, k2) == Field(f.config, k2)
    ensures Enabled(r) == Enabled(f)
  {
    f.(config := WithParam(f.config, k, v))
  }

  /** The quality and idle-timeout inputs are offered for HeyGen only. */
  predicate ShowsHeyGenParams(f: Form) {
    f.vendor == "heygen"
  }

  /**
   * After a vendor choice the HeyGen inputs are offered exactly for 'heygen',
   * and then the quality reads "medium" and the idle timeout 60; every other
   * name but 'akool' also selects the HeyGen config, without those inputs.
   */
  lemma VendorDecidesHeyGenParams(f: Form, vendor: string)
    ensures ShowsHeyGenParams(ChangeVendor(f, vendor)) <==> vendor == "heygen"
    ensures ShowsHeyGenParams(ChangeVendor(f, vendor)) ==>
      Param(ChangeVendor(f, vendor).config, "quality") == Some(Str("medium"))
      && Param(ChangeVendor(f, vendor).config, "activity_idle_timeout") == Some(Num(60.0))
    ensures vendor != "akool" ==> Field(ChangeVendor(f, vendor).config, "vendor") == Some(Str("heygen"))
  {
  }
}

=== FILE: countdown.dfy ===
/**
 * The idle-time countdown: the one-second tick that decrements the
 * remaining seconds, and the `MM:SS` text the card header shows.
 */
module Countdown {
  import opened Wrappers
  import opened Text

  /** The one-second timer update: a missing or exhausted counter reads 0. */
  function Tick(prev: Option<int>): (r: nat)
    ensures prev.None? ==> r == 0
    ensures prev.Some? && prev.value <= 0 ==> r == 0
    ensures prev.Some? && prev.value > 0 ==> r + 1 == prev.value
  {
    match prev
    case None => 0
    case Some(n) => if n <= 0 then 0 else n - 1
  }

  /** Repeated ticks never go below zero and reach zero after `n` steps from `n`. */
  function Ticks(prev: Option<int>, k: nat): nat
    decreases k
  {
    if k == 0 then Tick(prev) else Ticks(Some(Tick(prev)), k - 1)
  }

  lemma {:induction false} TicksReachZero(n: nat, k: nat)
    requires k + 1 >= n
    ensures Ticks(Some(n), k) == 0
  {
    if k > 0 {
      TicksReachZero(Tick(Some(n)), k - 1);
    }
  }

  // ---- decimal text ----------------------------------------------------

  function DigitValue(c: char): (d: nat)
    requires IsDigit(c)
    ensures d < 10
  {
    (c as int - '0' as int) as nat
  }

  lemma DigitRoundTrip(d: nat)
    requires d < 10
    ensures DigitValue(DigitChar(d)) == d
  {
  }

  /** The value of a run of decimal digits (leading zeros allowed). */
  function ParseDigits(s: string): nat
    requires AllDigits(s)
  {
    if |s| == 0 then 0 else ParseDigits(s[..|s| - 1]) * 10 + DigitValue(s[|s| - 1])
  }

  lemma {:induction false} ParseNatToString(n: nat)
    ensures ParseDigits(NatToString(n)) == n
  {
    if n >= 10 {
      var s := NatToString(n);
      assert s[..|s| - 1] == NatToString(n / 10);
      ParseNatToString(n / 10);
      DigitRoundTrip(n % 10);
    } else {
      DigitRoundTrip(n);
    }
  }

  lemma {:induction false} ParseLeadingZeros(z: nat, s: string)
    requires AllDigits(s)
    ensures AllDigits(Zeros(z) + s)
    ensures ParseDigits(Zeros(z) + s) == ParseDigits(s)
  {
    if |s| == 0 {
      assert Zeros(z) + s == Zeros(z);
      ZerosParse(z);
    } else {
      var t := Zeros(z) + s;
      assert t[..|t| - 1] == Zeros(z) + s[..|s| - 1];
      ParseLeadingZeros(z, s[..|s| - 1]);
    }
  }

  lemma {:induction false} ZerosParse(z: nat)
    ensures AllDigits(Zeros(z)) && ParseDigits(Zeros(z)) == 0
  {
    if z > 0 {
      assert Zeros(z)[..z - 1] == Zeros(z - 1);
      ZerosParse(z - 1);
    }
  }

  function Zeros(z: nat): (s: string)
    ensures |s| == z && forall i :: 0 <= i < z ==> s[i] == '0'
  {
    if z == 0 then "" else Zeros(z - 1) + "0"
  }

  /** `s.padStart(2, '0')`: left-pad with zeros to at least two characters. */
  function PadStart2(s: string): (r: string)
    ensures |r| == if |s| >= 2 then |s| else 2
    ensures r[|r| - |s|..] == s
    ensures forall i :: 0 <= i < |r| - |s| ==> r[i] == '0'
  {
    if |s| >= 2 then s else Zeros(2 - |s|) + s
  }

  // ---- the header text ---------------------------------------------------

  /** JavaScript's `%`: the remainder takes the sign of the dividend. */
  function JsRem(a: int, b: int): (r: int)
    requires b > 0
    ensures a >= 0 ==> r == a % b
    ensures a < 0 ==> r == -((-a) % b)
  {
    if a >= 0 then a % b else -((-a) % b)
  }

  /** `String(Math.floor(t / 60)).padStart(2, '0')`: the whole minutes, at least two digits. */
  function MinutesField(t: int): (m: string)
    ensures t >= 0 ==> AllDigits(m) && |m| >= 2 && ParseDigits(m) == t / 60
  {
    if t >= 0 then FieldValue(t / 60); PadStart2(NatToString(t / 60))
    else PadStart2(IntToString(t / 60))
  }

  /** `Math.floor(t % 60).toString().padStart(2, '0')`: the leftover seconds, exactly two digits. */
  function SecondsField(t: int): (s: string)
    ensures t >= 0 ==> AllDigits(s) && |s| == 2 && ParseDigits(s) == t % 60
  {
    if t >= 0 then FieldValue(t % 60); PadStart2(NatToString(t % 60))
    else PadStart2(IntToString(JsRem(t, 60)))
  }

  /**
   * The countdown text: whole minutes (`Math.floor(t / 60)`, which is Dafny's
   * `/` for a positive divisor) and the JavaScript remainder, each padded to
   * two characters and joined by a colon. For a non-negative time, the
   * digits before the last colon and the two after it read back as t.
   */
  function Format(t: int): (r: string)
    ensures t >= 0 ==> ReadsBackAs(r, t)
  {
    var f := MinutesField(t) + ":" + SecondsField(t);
    if t >= 0 then FieldsReadBack(t); f else f
  }

  /**
   * `r` is an `MM:SS` text for t: at least five characters with a colon
   * third from the end, digits on both sides, and 60 * MM + SS == t.
   */
  predicate ReadsBackAs(r: string, t: nat) {
    && |r| >= 5 && r[|r| - 3] == ':'
    && AllDigits(r[..|r| - 3]) && AllDigits(r[|r| - 2..])
    && 60 * ParseDigits(r[..|r| - 3]) + ParseDigits(r[|r| - 2..]) == t
  }

  /** The two fields joined by a colon read back as t. */
  lemma FieldsReadBack(t: nat)
    ensures ReadsBackAs(MinutesField(t) + ":" + SecondsField(t), t)
  {
    var m, s := MinutesField(t), SecondsField(t);
    var a, b := t / 60, t % 60;
    assert ParseDigits(m) == a && ParseDigits(s) == b;
    assert 60 * a + b == t;
    PartsReadBack(m, s, t);
  }

  /** Digit fields whose values make up t, joined by a colon, are an `MM:SS` text for t. */
  lemma PartsReadBack(m: string, s: string, t: nat)
    requires |m| >= 2 && AllDigits(m) && |s| == 2 && AllDigits(s)
    requires 60 * ParseDigits(m) + ParseDigits(s) == t
    ensures ReadsBackAs(m + ":" + s, t)
  {
    ColonBeforeLastTwo(m, s);
  }

  /** A two-character field after a colon: the colon is third from the end, with the first field before it. */
  lemma ColonBeforeLastTwo(m: string, s: string)
    requires |s| == 2
    ensures var f := m + ":" + s;
      |f| == |m| + 3 && f[|f| - 3] == ':' && f[..|f| - 3] == m && f[|f| - 2..] == s
  {
    SplitAt(m, s);
  }

  /** The header shows the countdown only for a started agent with a known remaining time. */
  function HeaderCountdown(started: bool, remaining: Option<int>): (r: Option<string>)
    ensures r.Some? <==> started && remaining.Some?
    ensures r.Some? ==> r.value == Format(remaining.value)
  {
    if started && remaining.Some? then Some(Format(remaining.value)) else None
  }

  /** For a natural number of seconds both fields are digit strings of at least two characters. */
  lemma FieldsAreDigits(t: nat)
    ensures AllDigits(MinutesField(t)) && |MinutesField(t)| >= 2
    ensures AllDigits(SecondsField(t)) && |SecondsField(t)| == 2
    ensures ParseDigits(SecondsField(t)) < 60
  {
    var s := NatToString(t % 60);
    ParseLeadingZeros(2 - |s|, s);
    ParseNatToString(t % 60);
    var m := NatToString(t / 60);
    if |m| < 2 {
      ParseLeadingZeros(2 - |m|, m);
    }
  }

  /** Below 100 minutes the text is exactly `MM:SS`: five characters, a colon in the middle. */
  lemma FormatWidth(t: nat)
    requires t < 6000
    ensures |Format(t)| == 5 && Format(t)[2] == ':'
    ensures Format(t)[3..] == SecondsField(t)
  {
    FieldsAreDigits(t);
    MinutesBelowHundred(t);
    var m, s := MinutesField(t), SecondsField(t);
    SplitAt(m, s);
  }

  lemma MinutesBelowHundred(t: nat)
    requires t < 6000
    ensures |MinutesField(t)| == 2
  {
    assert t / 60 < 100;
    assert |NatToString(t / 60)| <= 2;
  }

  /** Joining two colon-free fields with a colon can be split back at that colon. */
  lemma SplitAt(m: string, s: string)
    ensures var f := m + ":" + s;
      |f| == |m| + 1 + |s| && f[..|m|] == m && f[|m|] == ':' && f[|m| + 1..] == s
  {
    var f := m + ":" + s;
    assert f[..|m|] == m;
    assert f[|m| + 1..] == s;
  }

  /** The text splits at its only colon into the two fields. */
  lemma FormatSplit(t: nat)
    ensures var f := Format(t); var k := |MinutesField(t)|;
      f[..k] == MinutesField(t) && f[k] == ':' && f[k + 1..] == SecondsField(t)
      && ':' !in MinutesField(t) && ':' !in SecondsField(t)
  {
    FieldsAreDigits(t);
    var m, s := MinutesField(t), SecondsField(t);
    SplitAt(m, s);
    DigitsHaveNoColon(m);
    DigitsHaveNoColon(s);
  }

  /** A padded field reads back as the number it was made from. */
  lemma FieldValue(n: nat)
    ensures AllDigits(PadStart2(NatToString(n))) && ParseDigits(PadStart2(NatToString(n))) == n
  {
    var s := NatToString(n);
    ParseNatToString(n);
    if |s| < 2 {
      ParseLeadingZeros(2 - |s|, s);
    }
  }

  /** Reading the text back: the digits before the colon and after it give 60 * MM + SS == t. */
  lemma FormatRoundTrip(t: nat)
    ensures var f := Format(t); var k := |MinutesField(t)|;
      k < |f| && f[k] == ':' && AllDigits(f[..k]) && AllDigits(f[k + 1..])
      && 60 * ParseDigits(f[..k]) + ParseDigits(f[k + 1..]) == t
  {
    FormatSplit(t);
    FieldValue(t / 60);
    FieldValue(t % 60);
  }

  lemma DigitsHaveNoColon(s: string)
    requires AllDigits(s)
    ensures ':' !in s
  {
  }
}

=== FILE: custom_agent.dfy ===
/**
 * The custom-agent configuration editor: form state for every section, the
 * JSON view kept in step with it, the MLLM/cascading switch, reset, and the
 * properties record handed to agent creation. JSON text is kept abstractly:
 * text produced by stringifying a value is represented by that value, and
 * the parse of user-typed text is an input.
 */
module CustomAgent {
  import opened Wrappers
  import opened Json
  import Text
  import Asr
  import Llm
  import Tts
  import Avatar
  import Detection

  const FixedValues: Object := map[
    "channel" := Str("<CHANNEL_NAME>"),
    "token" := Str("<AGENT_TOKEN>"),
    "agent_rtc_uid" := Str("<AGENT_RTC_UID>"),
    "remote_rtc_uids" := Arr([Str("<REMOTE_RTC_UID>")]),
    "enable_string_uid" := Bool(false)]

  const DefaultTurnDetection := Obj(map[
    "type" := Str("agora_vad"), "interrupt_mode" := Str("interrupt"),
    "interrupt_duration_ms" := Num(160.0), "prefix_padding_ms" := Num(800.0),
    "silence_duration_ms" := Num(640.0), "threshold" := Num(0.5)])

  /** A timeout of 0 turns the silence reminder off. */
  const DefaultSilence := Obj(map[
    "timeout_ms" := Num(0.0), "action" := Str("speak"), "content" := Str("Are you still there?")])

  const DefaultParameters := Obj(map[
    "data_channel" := Str("datastream"), "enable_metrics" := Bool(false),
    "enable_error_message" := Bool(false), "silence_config" := DefaultSilence])

  const DefaultMllm := Obj(map[
    "url" := Str("wss://api.openai.com/v1/realtime"),
    "api_key" := Str("<YOUR_KEY>"),
    "params" := Obj(map[
      "model" := Str("gpt-4o-realtime-preview"), "voice" := Str("coral"),
      "instructions" := Str("You are a Conversational AI Agent, developed by Agora."),
      "input_audio_transcription" := Obj(map[
        "language" := Str("<language>"), "model" := Str("gpt-4o-mini-transcribe"),
        "prompt" := Str("expect words related to real-time engagement")])]),
    "max_history" := Num(20.0),
    "greeting_message" := Str("Hello, how can I help you today?"),
    "output_modalities" := Arr([Str("text"), Str("audio")]),
    "vendor" := Str("openai"),
    "style" := Str("openai")])

  /** The cascading placeholder. */
  const Placeholder := Obj(FixedValues + map[
    "idle_timeout" := Num(30.0),
    "llm" := Llm.DefaultOpenAi, "asr" := Asr.DefaultAres, "tts" := Tts.DefaultMicrosoft,
    "avatar" := Avatar.DefaultAkool,
    "turn_detection" := DefaultTurnDetection, "parameters" := DefaultParameters])

  /** The MLLM placeholder. */
  const PlaceholderMllm := Obj(FixedValues + map[
    "idle_timeout" := Num(30.0),
    "mllm" := DefaultMllm,
    "turn_detection" := DefaultTurnDetection, "parameters" := DefaultParameters,
    "advanced_features" := Obj(map["enable_mllm" := Bool(true)])])

  /** The three advanced-feature flags; each may be any JSON value, or undefined, after a JSON import. */
  datatype Features = Features(aivad: Option<Value>, rtm: Option<Value>, mllm: Option<Value>)

  function FeaturesOff(mllm: bool): Features {
    Features(Some(Bool(false)), Some(Bool(false)), Some(Bool(mllm)))
  }

  /** The features object as it appears in the record; undefined flags are dropped. */
  function FeaturesValue(a: Features): (v: Value)
    ensures Field(v, "enable_aivad") == a.aivad && Field(v, "enable_rtm") == a.rtm && Field(v, "enable_mllm") == a.mllm
  {
    Obj(With(With(With(map[], "enable_aivad", a.aivad), "enable_rtm", a.rtm), "enable_mllm", a.mllm))
  }

  /** The text of the JSON view: the stringification of a value, or what the user typed. */
  datatype JsonText = Shown(value: Value) | Typed(text: string)

  /** The outcome of `JSON.parse`, or of reading a property that throws. */
  datatype Parse = Parsed(value: Value) | Thrown(message: string)

  datatype Form = Form(
    text: JsonText,
    error: string,
    valid: bool,
    advancedMode: bool,           // the JSON view is shown
    asr: Asr.Form,
    llm: Llm.Form,
    tts: Tts.Form,
    avatar: Avatar.Form,
    turnDetection: Value,
    parameters: Value,
    useMllm: bool,
    mllm: Value,
    activeTab: string,
    features: Features)

  const Initial := Form(
    Shown(Placeholder), "", true, false,
    Asr.Form("ares", Asr.DefaultAres), Llm.Form("openai", Llm.DefaultOpenAi),
    Tts.Form("microsoft", Tts.DefaultMicrosoft), Avatar.Form("akool", Avatar.DefaultAkool),
    DefaultTurnDetection, DefaultParameters, false, DefaultMllm, "asr", FeaturesOff(false))

  /** What `JSON.parse` of the current text yields; stringified text parses back to its value. */
  function ParseOf(text: JsonText, typed: Parse): Parse {
    match text
    case Shown(v) => Parsed(v)
    case Typed(_) => typed
  }

  // ---- form to JSON -------------------------------------------------------------

  /**
   * The properties record assembled from the form (syncFormToJson's
   * `updatedProperties`): MLLM mode and cascading mode are exclusive, so it
   * holds the MLLM section alone or the four others; detection, parameters
   * and features are copied as they are; the fixed values and a 30 s idle
   * timeout are added.
   */
  function Properties(f: Form): (p: Value)
    ensures f.useMllm ==> (Field(p, "mllm") == Some(f.mllm)
      && Field(p, "asr").None? && Field(p, "llm").None? && Field(p, "tts").None? && Field(p, "avatar").None?)
    ensures !f.useMllm ==> (Field(p, "mllm").None?
      && Field(p, "asr") == Some(f.asr.config) && Field(p, "llm") == Some(f.llm.config)
      && Field(p, "tts") == Some(f.tts.config) && Field(p, "avatar") == Some(f.avatar.config))
    ensures Field(p, "turn_detection") == Some(f.turnDetection)
    ensures Field(p, "parameters") == Some(f.parameters)
    ensures Field(p, "advanced_features") == Some(FeaturesValue(f.features))
    ensures Field(p, "idle_timeout") == Some(Num(30.0))
    ensures Field(p, "channel") == Some(Str("<CHANNEL_NAME>")) && Field(p, "enable_string_uid") == Some(Bool(false))
    ensures Field(p, "token") == Some(Str("<AGENT_TOKEN>")) && Field(p, "agent_rtc_uid") == Some(Str("<AGENT_RTC_UID>"))
    ensures Field(p, "remote_rtc_uids") == Some(Arr([Str("<REMOTE_RTC_UID>")]))
  {
    var base := Common(f);
    if f.useMllm then Obj(base["mllm" := f.mllm])
    else Obj(base["asr" := f.asr.config]["llm" := f.llm.config]["tts" := f.tts.config]["avatar" := f.avatar.config])
  }

  /** The part of the record both modes share. */
  function Common(f: Form): (b: Object)
    ensures "mllm" !in b && "asr" !in b && "llm" !in b && "tts" !in b && "avatar" !in b
    ensures Get(b, "turn_detection") == Some(f.turnDetection)
    ensures Get(b, "parameters") == Some(f.parameters)
    ensures Get(b, "advanced_features") == Some(FeaturesValue(f.features))
    ensures Get(b, "idle_timeout") == Some(Num(30.0))
    ensures Get(b, "channel") == Some(Str("<CHANNEL_NAME>")) && Get(b, "enable_string_uid") == Some(Bool(false))
    ensures Get(b, "token") == Some(Str("<AGENT_TOKEN>")) && Get(b, "agent_rtc_uid") == Some(Str("<AGENT_RTC_UID>"))
    ensures Get(b, "remote_rtc_uids") == Some(Arr([Str("<REMOTE_RTC_UID>")]))
  {
    Fixed()["idle_timeout" := Num(30.0)]["enable_string_uid" := Bool(false)]
      ["turn_detection" := f.turnDetection]["parameters" := f.parameters]
      ["advanced_features" := FeaturesValue(f.features)]
  }

  /** The fixed values hold no section and none of the keys the form sets. */
  function Fixed(): (o: Object)
    ensures "mllm" !in o && "asr" !in o && "llm" !in o && "tts" !in o && "avatar" !in o
    ensures Get(o, "channel") == Some(Str("<CHANNEL_NAME>"))
    ensures Get(o, "token") == Some(Str("<AGENT_TOKEN>")) && Get(o, "agent_rtc_uid") == Some(Str("<AGENT_RTC_UID>"))
    ensures Get(o, "remote_rtc_uids") == Some(Arr([Str("<REMOTE_RTC_UID>")]))
  {
    FixedValues
  }

  /** syncFormToJson: the text becomes the record, which is valid. */
  function SyncFormToJson(f: Form): (r: Form)
    ensures r.text == Shown(Properties(f)) && r.valid && r.error == ""
    ensures r == f.(text := r.text, valid := true, error := "")
  {
    f.(text := Shown(Properties(f)), valid := true, error := "")
  }

  // ---- MLLM toggle and reset ----------------------------------------------------

  /** handleMllmToggle: mode, tab, features and placeholder text follow the switch. */
  function ToggleMllm(f: Form, checked: bool): (r: Form)
    ensures r.useMllm == checked
    ensures r.activeTab == (if checked then "mllm" else "asr")
    ensures r.features == Features(Some(Bool(false)), Some(Bool(false)), Some(Bool(checked)))
    ensures r.text == Shown(if checked then PlaceholderMllm else Placeholder)
    ensures r.asr == f.asr && r.llm == f.llm && r.tts == f.tts && r.avatar == f.avatar && r.mllm == f.mllm
  {
    f.(useMllm := checked, activeTab := if checked then "mllm" else "asr", features := FeaturesOff(checked),
       text := Shown(if checked then PlaceholderMllm else Placeholder))
  }

  /** resetToDefault: every section back to its default, cascading mode, ASR tab; validity and the view are kept. */
  function Reset(f: Form): (r: Form)
    ensures r == Initial.(error := f.error, valid := f.valid, advancedMode := f.advancedMode)
  {
    Form(Shown(Placeholder), f.error, f.valid, f.advancedMode,
         Asr.Form("ares", Asr.DefaultAres), Llm.Form("openai", Llm.DefaultOpenAi),
         Tts.Form("microsoft", Tts.DefaultMicrosoft), Avatar.Form("akool", Avatar.DefaultAkool),
         DefaultTurnDetection, DefaultParameters, false, DefaultMllm, "asr", FeaturesOff(false))
  }

  // ---- JSON to form -------------------------------------------------------------

  /** A truthy value on which the `in` operator throws. */
  predicate ThrowsOnIn(v: Option<Value>) {
    Truthy(v) && (v.value.Str? || v.value.Num? || v.value.Bool?)
  }

  const InvalidJson := "Invalid JSON: "

  /** The catch branch: an error message and the invalid flag, nothing else. */
  function Fail(f: Form, message: string): (r: Form)
    ensures !r.valid && r.error == InvalidJson + message
  {
    f.(error := InvalidJson + message, valid := false)
  }

  /**
   * syncJsonToForm. A parse failure, or a null document whose first property
   * read throws, only records the error. Otherwise each section present
   * (truthy) in the document replaces the form's, with its vendor (or the
   * LLM style, 'openai' without one) as the selector; the features are
   * always replaced; mode and tab follow `advanced_features.enable_mllm`.
   * A truthy primitive `llm` makes the `in` test throw after the mode and
   * the ASR section were already taken over.
   */
  function SyncJsonToForm(f: Form, parse: Parse): (r: Form)
    ensures parse.Thrown? ==> r == Fail(f, parse.message)
    ensures parse == Parsed(Null) ==> r == Fail(f, "TypeError")
  {
    match parse
    case Thrown(message) => Fail(f, message)
    case Parsed(v) =>
      if v == Null then Fail(f, "TypeError")
      else
        var g := ImportAsr(f, v);
        if ThrowsOnIn(Field(v, "llm")) then Fail(g, "TypeError")
        else ImportFeatures(ImportRest(g, v), v)
  }

  /** Line 540 and the ASR section: the steps before the `in` test. */
  function ImportAsr(f: Form, v: Value): (r: Form)
    ensures r.useMllm == (Truthy(Field(v, "mllm")) && !HasCascading(v))
    ensures if Truthy(Field(v, "asr")) then r.asr == Asr.Form(StrOf(Prop(Field(v, "asr"), "vendor")), Field(v, "asr").value)
            else r.asr == f.asr
    ensures r == f.(useMllm := r.useMllm, asr := r.asr)
  {
    var asr := Field(v, "asr");
    var g := f.(useMllm := Truthy(Field(v, "mllm")) && !HasCascading(v));
    if Truthy(asr) then g.(asr := Asr.Form(StrOf(Prop(asr, "vendor")), asr.value)) else g
  }

  predicate HasCascading(v: Value) {
    Truthy(Field(v, "asr")) || Truthy(Field(v, "llm")) || Truthy(Field(v, "tts")) || Truthy(Field(v, "avatar"))
  }

  /** The remaining sections, each taken over when present. */
  function ImportRest(f: Form, v: Value): (r: Form)
    ensures if Truthy(Field(v, "llm")) then r.llm == Llm.Form(LlmTypeOf(Field(v, "llm").value), Field(v, "llm").value)
            else r.llm == f.llm
    ensures if Truthy(Field(v, "tts")) then r.tts == Tts.Form(StrOf(Prop(Field(v, "tts"), "vendor")), Field(v, "tts").value)
            else r.tts == f.tts
    ensures if Truthy(Field(v, "avatar")) then r.avatar == Avatar.Form(StrOf(Prop(Field(v, "avatar"), "vendor")), Field(v, "avatar").value)
            else r.avatar == f.avatar
    ensures r.turnDetection == Or(Field(v, "turn_detection"), f.turnDetection)
    ensures r.parameters == Or(Field(v, "parameters"), f.parameters)
    ensures r.mllm == Or(Field(v, "mllm"), f.mllm)
    ensures r == f.(llm := r.llm, tts := r.tts, avatar := r.avatar, turnDetection := r.turnDetection,
                    parameters := r.parameters, mllm := r.mllm)
  {
    var llm := Field(v, "llm");
    var tts := Field(v, "tts");
    var avatar := Field(v, "avatar");
    var f1 := if Truthy(llm) then f.(llm := Llm.Form(LlmTypeOf(llm.value), llm.value)) else f;
    var f2 := if Truthy(tts) then f1.(tts := Tts.Form(StrOf(Prop(tts, "vendor")), tts.value)) else f1;
    var f3 := if Truthy(avatar) then f2.(avatar := Avatar.Form(StrOf(Prop(avatar, "vendor")), avatar.value)) else f2;
    f3.(turnDetection := Or(Field(v, "turn_detection"), f.turnDetection),
        parameters := Or(Field(v, "parameters"), f.parameters),
        mllm := Or(Field(v, "mllm"), f.mllm))
  }

  /** The features are always replaced, and the mode and tab follow enable_mllm, overriding the mode the import set first. */
  function ImportFeatures(f: Form, v: Value): (r: Form)
    ensures r.features.mllm == Prop(Field(v, "advanced_features"), "enable_mllm")
    ensures r.useMllm == Truthy(r.features.mllm)
    ensures r.activeTab == if r.useMllm then "mllm" else "asr"
    ensures r.valid && r.error == ""
    ensures r == f.(features := r.features, useMllm := r.useMllm, activeTab := r.activeTab, valid := true, error := "")
  {
    var af := Field(v, "advanced_features");
    var features := Features(Prop(af, "enable_aivad"), Prop(af, "enable_rtm"), Prop(af, "enable_mllm"));
    var on := Truthy(features.mllm);
    f.(features := features, useMllm := on, activeTab := if on then "mllm" else "asr", valid := true, error := "")
  }

  /** The selector value for an imported LLM section: its style if it has one, else 'openai'. */
  function LlmTypeOf(llm: Value): (t: string)
    ensures Field(llm, "style").None? ==> t == "openai"
    ensures Field(llm, "style").Some? && Field(llm, "style").value.Str? ==> t == Field(llm, "style").value.s
    ensures Field(llm, "style").Some? && !Field(llm, "style").value.Str? ==> t == ""
  {
    if llm.Obj? && "style" in llm.fields then StrOf(Some(llm.fields["style"])) else "openai"
  }

  /** On a successful import the mode and tab follow the enable_mllm flag alone, whatever sections the document holds. */
  lemma ImportedMode(f: Form, v: Value)
    requires v != Null && !ThrowsOnIn(Field(v, "llm"))
    ensures var r := SyncJsonToForm(f, Parsed(v));
      && r.valid && r.error == ""
      && r.useMllm == Truthy(Prop(Field(v, "advanced_features"), "enable_mllm"))
      && r.activeTab == (if r.useMllm then "mllm" else "asr")
      && r.text == f.text && r.advancedMode == f.advancedMode
  {
  }

  /** A cascading section present in the document replaces the form's; an absent one is kept. */
  lemma ImportedCascading(f: Form, v: Value)
    requires v != Null && !ThrowsOnIn(Field(v, "llm"))
    ensures var r := SyncJsonToForm(f, Parsed(v));
      && (if Truthy(Field(v, "asr")) then r.asr.config == Field(v, "asr").value else r.asr == f.asr)
      && (if Truthy(Field(v, "llm")) then r.llm.config == Field(v, "llm").value else r.llm == f.llm)
      && (if Truthy(Field(v, "tts")) then r.tts.config == Field(v, "tts").value else r.tts == f.tts)
      && (if Truthy(Field(v, "avatar")) then r.avatar.config == Field(v, "avatar").value else r.avatar == f.avatar)
  {
  }

  /** The same for the detection, parameter and MLLM sections. */
  lemma ImportedShared(f: Form, v: Value)
    requires v != Null && !ThrowsOnIn(Field(v, "llm"))
    ensures var r := SyncJsonToForm(f, Parsed(v));
      && (if Truthy(Field(v, "turn_detection")) then r.turnDetection == Field(v, "turn_detection").value
          else r.turnDetection == f.turnDetection)
      && (if Truthy(Field(v, "parameters")) then r.parameters == Field(v, "parameters").value
          else r.parameters == f.parameters)
      && (if Truthy(Field(v, "mllm")) then r.mllm == Field(v, "mllm").value else r.mllm == f.mllm)
  {
  }

  // ---- the JSON view ------------------------------------------------------------

  /** handleJsonChange: the text is taken as typed; validity follows the parse. */
  function JsonChange(f: Form, text: string, parse: Parse): (r: Form)
    ensures r.text == Typed(text)
    ensures r.valid <==> parse.Parsed?
    ensures r.error == if parse.Parsed? then "" else InvalidJson + parse.message
  {
    match parse
    case Parsed(_) => f.(text := Typed(text), error := "", valid := true)
    case Thrown(message) => f.(text := Typed(text), error := InvalidJson + message, valid := false)
  }

  /** handleViewJSONModeToggle: entering the JSON view writes the form out, leaving it reads the text back. */
  function ToggleJsonView(f: Form, checked: bool, typed: Parse): (r: Form)
    ensures r.advancedMode == checked
    ensures checked ==> r == SyncFormToJson(f).(advancedMode := true)
    ensures !checked ==> r == SyncJsonToForm(f, ParseOf(f.text, typed)).(advancedMode := false)
  {
    var g := if checked then SyncFormToJson(f) else SyncJsonToForm(f, ParseOf(f.text, typed));
    g.(advancedMode := checked)
  }

  /** getLineNumbers: one number per line of the text, counting from 1. */
  function LineNumbers(text: string): (r: seq<int>)
    ensures |r| == Text.Count(text, '\n') + 1
    ensures forall i :: 0 <= i < |r| ==> r[i] == i + 1
  {
    var lines := Text.Split(text, '\n');
    seq(|lines|, i requires 0 <= i < |lines| => i + 1)
  }

  /** The Create Agent button: the form's record, or the parsed text in the JSON view (None: the parse throws). */
  function CreateAgent(f: Form, typed: Parse): (r: (Form, Option<Value>))
    ensures !f.advancedMode ==> r.0 == SyncFormToJson(f) && r.1 == Some(Properties(f))
    ensures f.advancedMode ==> r.0 == f && (r.1.Some? <==> ParseOf(f.text, typed).Parsed?)
    ensures f.advancedMode && ParseOf(f.text, typed).Parsed? ==> r.1 == Some(ParseOf(f.text, typed).value)
  {
    if !f.advancedMode then (SyncFormToJson(f), Some(Properties(f)))
    else match ParseOf(f.text, typed)
      case Parsed(v) => (f, Some(v))
      case Thrown(_) => (f, None)
  }

  // ---- events and the mode invariant --------------------------------------------

  /** An input of the ASR section. */
  datatype AsrEvent =
    | AsrVendor(asrVendor: string)
    | AsrLanguage(language: string)
    | AsrParam(asrKey: string, asrValue: string)

  /** An input of the LLM section. */
  datatype LlmEvent =
    | LlmType(llmType: string)
    | LlmPrompt(prompt: string)
    | LlmField(llmKey: string, llmValue: Value)
    | LlmModel(model: string)

  /** An input of the TTS section. */
  datatype TtsEvent =
    | TtsVendor(ttsVendor: string)
    | TtsParam(ttsKey: string, ttsValue: Value)
    | CartesiaVoice(voiceId: string)

  /** An input of the avatar section. */
  datatype AvatarEvent =
    | AvatarVendor(avatarVendor: string)
    | AvatarEnable(avatarOn: bool)
    | AvatarParam(avatarKey: string, avatarValue: Value)

  /** An input of the detection and advanced sections. */
  datatype SettingsEvent =
    | DetectionType(detectionType: string)
    | DetectionField(detectionKey: string, detectionValue: Value)
    | ParametersField(parametersKey: string, parametersValue: Value)
    | SilenceTimeout(timeoutMs: real)
    | SilenceAction(action: string)
    | SilenceContent(content: string)
    | FeatureAivad(aivadOn: bool)
    | FeatureRtm(rtmOn: bool)

  /** A control of the editor itself. */
  datatype FormEvent =
    | MllmToggle(mllmOn: bool)
    | JsonEdit(text: string, parse: Parse)
    | ResetAll
    | SelectTab(tab: string)

  /** One editor event: an input of a section, an editor control, or the JSON view switch. */
  datatype Event =
    | AsrEdit(asrEvent: AsrEvent)
    | LlmEdit(llmEvent: LlmEvent)
    | TtsEdit(ttsEvent: TtsEvent)
    | AvatarEdit(avatarEvent: AvatarEvent)
    | SettingsEdit(settingsEvent: SettingsEvent)
    | FormEdit(formEvent: FormEvent)
    | JsonView(viewOn: bool, typed: Parse)

  /** One editor event, dispatched to the section it edits. */
  function Step(f: Form, e: Event): Form {
    match e
    case AsrEdit(a) => AsrStep(f, a)
    case LlmEdit(l) => LlmStep(f, l)
    case TtsEdit(t) => TtsStep(f, t)
    case AvatarEdit(a) => AvatarStep(f, a)
    case SettingsEdit(s) => SettingsStep(f, s)
    case FormEdit(c) => FormStep(f, c)
    case JsonView(on, typed) => ToggleJsonView(f, on, typed)
  }

  function AsrStep(f: Form, e: AsrEvent): Form {
    match e
    case AsrVendor(name) => f.(asr := Asr.ChangeVendor(f.asr, name))
    case AsrLanguage(language) => f.(asr := Asr.EditLanguage(f.asr, language))
    case AsrParam(k, value) => f.(asr := Asr.EditParam(f.asr, k, value))
  }

  function LlmStep(f: Form, e: LlmEvent): Form {
    match e
    case LlmType(t) => f.(llm := Llm.ChangeType(f.llm, t))
    case LlmPrompt(text) => f.(llm := Llm.EditSystemPrompt(f.llm, text))
    case LlmField(k, value) => f.(llm := Llm.EditField(f.llm, k, value))
    case LlmModel(model) => f.(llm := Llm.EditModel(f.llm, model))
  }

  function TtsStep(f: Form, e: TtsEvent): Form {
    match e
    case TtsVendor(name) => f.(tts := Tts.ChangeVendor(f.tts, name))
    case TtsParam(k, value) => f.(tts := Tts.EditParam(f.tts, k, value))
    case CartesiaVoice(id) => f.(tts := Tts.EditCartesiaVoice(f.tts, id))
  }

  function AvatarStep(f: Form, e: AvatarEvent): Form {
    match e
    case AvatarVendor(name) => f.(avatar := Avatar.ChangeVendor(f.avatar, name))
    case AvatarEnable(on) => f.(avatar := Avatar.SetEnable(f.avatar, on))
    case AvatarParam(k, value) => f.(avatar := Avatar.EditParam(f.avatar, k, value))
  }

  function SettingsStep(f: Form, e: SettingsEvent): Form {
    match e
    case DetectionType(t) => f.(turnDetection := Detection.ChangeType(f.turnDetection, t))
    case DetectionField(k, value) => f.(turnDetection := Detection.EditSetting(f.turnDetection, k, value))
    case ParametersField(k, value) => f.(parameters := Detection.EditSetting(f.parameters, k, value))
    case SilenceTimeout(ms) => f.(parameters := Detection.EditSilenceTimeout(f.parameters, ms))
    case SilenceAction(action) => f.(parameters := Detection.EditSilenceAction(f.parameters, action))
    case SilenceContent(content) => f.(parameters := Detection.EditSilenceContent(f.parameters, content))
    case FeatureAivad(on) => f.(features := f.features.(aivad := Some(Bool(on))))
    case FeatureRtm(on) => f.(features := f.features.(rtm := Some(Bool(on))))
  }

  function FormStep(f: Form, e: FormEvent): Form {
    match e
    case MllmToggle(on) => ToggleMllm(f, on)
    case JsonEdit(text, parse) => JsonChange(f, text, parse)
    case ResetAll => Reset(f)
    case SelectTab(tab) => f.(activeTab := tab)
  }

  /**
   * The mode switch agrees with the enable_mllm flag, and every section the
   * form edits is a truthy value (the LLM one an object or array), so that
   * writing the form out and reading it back finds every section.
   */
  predicate Inv(f: Form) {
    && f.useMllm == Truthy(f.features.mllm)
    && Truthy(Some(f.asr.config)) && Truthy(Some(f.llm.config)) && !ThrowsOnIn(Some(f.llm.config))
    && Truthy(Some(f.tts.config)) && Truthy(Some(f.avatar.config))
    && Truthy(Some(f.turnDetection)) && Truthy(Some(f.parameters)) && Truthy(Some(f.mllm))
  }

  lemma InitialInv()
    ensures Inv(Initial)
  {
  }

  /** The one import that throws half-way: a document whose `llm` is a truthy primitive. */
  predicate ThrowsMidImport(f: Form, e: Event) {
    && e.JsonView? && !e.viewOn
    && ParseOf(f.text, e.typed).Parsed?
    && ParseOf(f.text, e.typed).value != Null
    && ThrowsOnIn(Field(ParseOf(f.text, e.typed).value, "llm"))
  }

  /** Every event except the half-way import keeps the invariant. */
  lemma StepPreservesInv(f: Form, e: Event)
    requires Inv(f) && !ThrowsMidImport(f, e)
    ensures Inv(Step(f, e))
  {
    match e
    case AsrEdit(a) => AsrEventKeepsInv(f, a);
    case LlmEdit(l) => LlmEventKeepsInv(f, l);
    case TtsEdit(t) => TtsEventKeepsInv(f, t);
    case AvatarEdit(a) => AvatarEventKeepsInv(f, a);
    case SettingsEdit(s) => SettingsEventKeepsInv(f, s);
    case FormEdit(c) => FormEventKeepsInv(f, c);
    case JsonView(on, typed) => JsonViewKeepsInv(f, on, typed);
  }

  lemma JsonViewKeepsInv(f: Form, on: bool, typed: Parse)
    requires Inv(f) && !ThrowsMidImport(f, JsonView(on, typed))
    ensures Inv(ToggleJsonView(f, on, typed))
  {
    var parse := ParseOf(f.text, typed);
    var g := if on then SyncFormToJson(f) else SyncJsonToForm(f, parse);
    if on {
      InvIgnoresView(f, g);
    } else if parse.Parsed? && parse.value != Null {
      ImportKeepsInv(f, parse.value);
    } else {
      FailedImportKeepsInv(f, parse);
    }
    InvIgnoresView(g, g.(advancedMode := on));
  }

  /** A successful import keeps the invariant: every section it takes over is truthy, and the mode follows enable_mllm. */
  lemma ImportKeepsInv(f: Form, v: Value)
    requires Inv(f) && v != Null && !ThrowsOnIn(Field(v, "llm"))
    ensures Inv(SyncJsonToForm(f, Parsed(v)))
  {
    var h := ImportRest(ImportAsr(f, v), v);
    assert SyncJsonToForm(f, Parsed(v)) == ImportFeatures(h, v);
  }

  /** An import that fails at once touches only the error and the validity flag. */
  lemma FailedImportKeepsInv(f: Form, parse: Parse)
    requires Inv(f) && (parse.Thrown? || parse == Parsed(Null))
    ensures Inv(SyncJsonToForm(f, parse))
  {
    var g := if parse.Thrown? then Fail(f, parse.message) else Fail(f, "TypeError");
    assert SyncJsonToForm(f, parse) == g;
    InvIgnoresView(f, g);
  }

  /** The invariant does not look at the text, its validity, the view or the tab. */
  lemma InvIgnoresView(f: Form, g: Form)
    requires Inv(f)
    requires g == f.(text := g.text, error := g.error, valid := g.valid, advancedMode := g.advancedMode, activeTab := g.activeTab)
    ensures Inv(g)
  {
  }

  lemma FormEventKeepsInv(f: Form, e: FormEvent)
    requires Inv(f)
    ensures Inv(Step(f, FormEdit(e)))
  {
    match e
    case MllmToggle(on) => ToggleMllmKeepsInv(f, on);
    case JsonEdit(text, parse) => JsonChangeKeepsInv(f, text, parse);
    case ResetAll => ResetKeepsInv(f);
    case SelectTab(tab) => InvIgnoresView(f, f.(activeTab := tab));
  }

  lemma JsonChangeKeepsInv(f: Form, text: string, parse: Parse)
    requires Inv(f)
    ensures Inv(JsonChange(f, text, parse))
  {
    var g := JsonChange(f, text, parse);
    assert g == f.(text := g.text, error := g.error, valid := g.valid);
    InvIgnoresView(f, g);
  }

  lemma ResetKeepsInv(f: Form)
    ensures Inv(Reset(f))
  {
    InitialInv();
    InvIgnoresView(Initial, Reset(f));
  }

  /** The MLLM switch sets the mode and the enable_mllm flag together. */
  lemma ToggleMllmKeepsInv(f: Form, on: bool)
    requires Inv(f)
    ensures Inv(ToggleMllm(f, on))
  {
    var r := ToggleMllm(f, on);
    assert r.features.mllm == Some(Bool(on));
    assert r.turnDetection == f.turnDetection && r.parameters == f.parameters;
  }

  lemma AsrEventKeepsInv(f: Form, e: AsrEvent)
    requires Inv(f)
    ensures Inv(Step(f, AsrEdit(e)))
  {
  }

  lemma LlmEventKeepsInv(f: Form, e: LlmEvent)
    requires Inv(f)
    ensures Inv(Step(f, LlmEdit(e)))
  {
  }

  lemma TtsEventKeepsInv(f: Form, e: TtsEvent)
    requires Inv(f)
    ensures Inv(Step(f, TtsEdit(e)))
  {
  }

  lemma AvatarEventKeepsInv(f: Form, e: AvatarEvent)
    requires Inv(f)
    ensures Inv(Step(f, AvatarEdit(e)))
  {
  }

  lemma SettingsEventKeepsInv(f: Form, e: SettingsEvent)
    requires Inv(f)
    ensures Inv(Step(f, SettingsEdit(e)))
  {
  }

  function Run(f: Form, es: seq<Event>): Form
    decreases |es|
  {
    if |es| == 0 then f else Run(Step(f, es[0]), es[1..])
  }

  /** Whether some event of the run is the half-way import. */
  predicate ThrowsDuring(f: Form, es: seq<Event>)
    decreases |es|
  {
    |es| > 0 && (ThrowsMidImport(f, es[0]) || ThrowsDuring(Step(f, es[0]), es[1..]))
  }

  /** From the initial form, any run without the half-way import keeps mode and flag in agreement. */
  lemma {:induction false} RunPreservesInv(f: Form, es: seq<Event>)
    requires Inv(f) && !ThrowsDuring(f, es)
    ensures Inv(Run(f, es))
    ensures Run(f, es).useMllm == Truthy(Run(f, es).features.mllm)
    decreases |es|
  {
    if |es| > 0 {
      StepPreservesInv(f, es[0]);
      RunPreservesInv(Step(f, es[0]), es[1..]);
    }
  }

  /**
   * The half-way import does break it: in MLLM mode, a document whose `llm`
   * is a truthy primitive switches the form to cascading mode before the
   * import throws, while enable_mllm keeps its old, truthy value.
   */
  lemma HalfImportBreaksInv(f: Form, typed: Parse)
    requires Inv(f) && f.useMllm && ThrowsMidImport(f, JsonView(false, typed))
    ensures !Step(f, JsonView(false, typed)).useMllm
    ensures Step(f, JsonView(false, typed)).features == f.features
    ensures !Inv(Step(f, JsonView(false, typed)))
  {
    var v := ParseOf(f.text, typed).value;
    assert HasCascading(v);
    var g := ImportAsr(f, v);
    assert !g.useMllm && g.features == f.features;
    assert SyncJsonToForm(f, Parsed(v)) == Fail(g, "TypeError");
    assert Step(f, JsonView(false, typed)) == Fail(g, "TypeError").(advancedMode := false);
  }

  /** From `f0`, typing `text` that parses to `doc` keeps the invariant, and closing the JSON view then breaks it. */
  predicate TypingBreaksInv(f0: Form, text: string, doc: Value) {
    var f := JsonChange(f0, text, Parsed(doc));
    Inv(f) && !Inv(Step(f, JsonView(false, Parsed(doc))))
  }

  /** One such run from the initial form: switch to MLLM, type `{"llm": 5}`, close the JSON view. */
  lemma PrimitiveLlmBreaksInv()
    ensures TypingBreaksInv(ToggleMllm(Initial, true), "{\"llm\": 5}", Obj(map["llm" := Num(5.0)]))
  {
    var doc := Obj(map["llm" := Num(5.0)]);
    assert Field(doc, "llm") == Some(Num(5.0));
    MllmStartInv();
    TypedPrimitiveLlmBreaksInv(ToggleMllm(Initial, true), "{\"llm\": 5}", doc);
  }

  /** Switching the initial form to MLLM keeps the invariant. */
  lemma MllmStartInv()
    ensures Inv(ToggleMllm(Initial, true)) && ToggleMllm(Initial, true).useMllm
  {
    InitialInv();
    ToggleMllmKeepsInv(Initial, true);
  }

  /** In MLLM mode, typing a document whose `llm` is a truthy primitive keeps the invariant; closing the view then breaks it. */
  lemma TypedPrimitiveLlmBreaksInv(f0: Form, text: string, doc: Value)
    requires Inv(f0) && f0.useMllm
    requires doc != Null && ThrowsOnIn(Field(doc, "llm"))
    ensures TypingBreaksInv(f0, text, doc)
  {
    JsonChangeKeepsInv(f0, text, Parsed(doc));
    var f := JsonChange(f0, text, Parsed(doc));
    assert f == f0.(text := Typed(text), error := "", valid := true);
    HalfImportBreaksInv(f, Parsed(doc));
  }

  // ---- round trip ---------------------------------------------------------------

  /**
   * Opening the JSON view and closing it again without edits restores every
   * section of the form; only the selector names are re-derived from the
   * sections (a vendor from its config, the LLM type from its style).
   */
  lemma {:induction false} JsonViewRoundTrip(f: Form, typed1: Parse, typed2: Parse)
    requires Inv(f)
    ensures var r := ToggleJsonView(ToggleJsonView(f, true, typed1), false, typed2);
      && r.useMllm == f.useMllm && r.features == f.features
      && r.turnDetection == f.turnDetection && r.parameters == f.parameters && r.mllm == f.mllm
      && r.asr.config == f.asr.config && r.llm.config == f.llm.config
      && r.tts.config == f.tts.config && r.avatar.config == f.avatar.config
      && (!f.useMllm ==>
            (r.asr.vendor == StrOf(Field(f.asr.config, "vendor"))
             && r.llm.llmType == LlmTypeOf(f.llm.config)
             && r.tts.vendor == StrOf(Field(f.tts.config, "vendor"))))
      && (f.useMllm ==> r.asr == f.asr && r.llm == f.llm && r.tts == f.tts && r.avatar == f.avatar)
      && r.valid && r.error == "" && !r.advancedMode
  {
    var p := Properties(f);
    var g := ToggleJsonView(f, true, typed1);
    assert g.text == Shown(p);
    assert ParseOf(g.text, typed2) == Parsed(p);
    var a := ImportAsr(g, p);
    var b := ImportRest(a, p);
    var c := ImportFeatures(b, p);
    assert Field(p, "advanced_features") == Some(FeaturesValue(f.features));
    assert c.features == f.features;
  }
}

=== FILE: detection.dfy ===
/**
 * The turn-detection and general-parameter section of the configuration
 * editor: which options each mode offers, and how edits merge into the
 * (untyped, possibly hand-edited) turn_detection and parameters objects.
 */
module Detection {
  import opened Wrappers
  import opened Json

  /** The detection types the selector offers; the server-side ones only in MLLM mode. */
  function TypeOptions(enableMllm: bool): (r: seq<string>)
    ensures "agora_vad" in r
    ensures "server_vad" in r <==> enableMllm
    ensures "semantic_vad" in r <==> enableMllm
  {
    ["agora_vad"] + (if enableMllm then ["server_vad", "semantic_vad"] else [])
  }

  /** The interrupt modes the selector offers; append and ignore only outside MLLM mode. */
  function InterruptModeOptions(enableMllm: bool): (r: seq<string>)
    ensures "interrupt" in r
    ensures "append" in r <==> !enableMllm
    ensures "ignore" in r <==> !enableMllm
  {
    ["interrupt"] + (if enableMllm then [] else ["append", "ignore"])
  }

  predicate ServerSide(t: string) {
    t == "server_vad" || t == "semantic_vad"
  }

  /**
   * Choosing a detection type: a server-side type forces eagerness 'auto';
   * agora_vad keeps whatever eagerness there was (possibly none).
   */
  function ChangeType(td: Value, t: string): (r: Value)
    ensures Field(r, "type") == Some(Str(t))
    ensures Field(r, "eagerness") == if ServerSide(t) then Some(Str("auto")) else Field(td, "eagerness")
    ensures forall k :: k != "type" && k != "eagerness" ==> Field(r, k) == Field(td, k)
  {
    var eagerness := if ServerSide(t) then Some(Str("auto")) else Field(td, "eagerness");
    Obj(With(With(Spread(Some(td)), "type", Some(Str(t))), "eagerness", eagerness))
  }

  /**
   * A single-field control of turn_detection (interrupt mode, eagerness, the
   * duration and threshold sliders, the two response switches) or of
   * parameters (the data-channel selector, the metrics and error-message
   * switches): `{...obj, [k]: v}`, so only that field changes.
   */
  function EditSetting(obj: Value, k: string, v: Value): (r: Value)
    ensures Field(r, k) == Some(v)
    ensures forall k2 :: k2 != k ==> Field(r, k2) == Field(obj, k2)
  {
    WithField(obj, k, v)
  }

  /** The eagerness selector is shown for the server-side types only. */
  predicate ShowsEagerness(td: Value) {
    Field(td, "type") in {Some(Str("semantic_vad")), Some(Str("server_vad"))}
  }

  /** After choosing a server-side type the eagerness selector shows 'auto'. */
  lemma ServerSideTypeShowsAuto(td: Value, t: string)
    requires ServerSide(t)
    ensures ShowsEagerness(ChangeType(td, t)) && Field(ChangeType(td, t), "eagerness") == Some(Str("auto"))
  {
  }

  /** The interrupt/silence duration and threshold sliders are hidden for semantic_vad. */
  predicate ShowsDurations(td: Value) {
    Field(td, "type") != Some(Str("semantic_vad"))
  }

  /** The create-response and interrupt-response switches are hidden for agora_vad. */
  predicate ShowsResponseSwitches(td: Value) {
    Field(td, "type") != Some(Str("agora_vad"))
  }

  /**
   * After a type choice, the sliders are shown for every type but
   * semantic_vad, and the response switches for every type but agora_vad;
   * no other control changes what is shown.
   */
  lemma TypeDecidesControls(td: Value, t: string, k: string, v: Value)
    ensures ShowsDurations(ChangeType(td, t)) <==> t != "semantic_vad"
    ensures ShowsResponseSwitches(ChangeType(td, t)) <==> t != "agora_vad"
    ensures ShowsEagerness(ChangeType(td, t)) <==> ServerSide(t)
    ensures k != "type" ==>
      && ShowsDurations(EditSetting(td, k, v)) == ShowsDurations(td)
      && ShowsResponseSwitches(EditSetting(td, k, v)) == ShowsResponseSwitches(td)
  {
  }

  /** The Interrupt Response switch as written: `interrupt_response || true`. */
  predicate InterruptResponseShownAsWritten(td: Value) {
    Truthy(Field(td, "interrupt_response")) || true
  }

  /** The switch as written reads "on" even right after it was turned off. */
  lemma InterruptResponseStuckOn(td: Value)
    ensures Field(EditSetting(td, "interrupt_response", Bool(false)), "interrupt_response") == Some(Bool(false))
    ensures InterruptResponseShownAsWritten(EditSetting(td, "interrupt_response", Bool(false)))
  {
  }

  /** The switch defaulting to on only when the field is absent or null (`?? true`). */
  predicate InterruptResponseShown(td: Value) {
    match Field(td, "interrupt_response")
    case None => true
    case Some(Null) => true
    case Some(v) => Truthy(Some(v))
  }

  /** With the default applied only to a missing value, the switch shows what it last set. */
  lemma InterruptResponseFollowsSwitch(td: Value, on: bool)
    ensures InterruptResponseShown(EditSetting(td, "interrupt_response", Bool(on))) == on
  {
  }

  /** The create-response switch: `create_response || false`. */
  predicate CreateResponseShown(td: Value) {
    Truthy(Field(td, "create_response"))
  }

  lemma CreateResponseFollowsSwitch(td: Value, on: bool)
    ensures CreateResponseShown(EditSetting(td, "create_response", Bool(on))) == on
  {
  }

  // ---- silence configuration --------------------------------------------------

  /** The silence section is editable only outside MLLM mode and when a silence config exists. */
  predicate SilenceEditable(enableMllm: bool, parameters: Value) {
    !enableMllm && Truthy(Field(parameters, "silence_config"))
  }

  /** Outside MLLM mode, each silence edit leaves the section shown: it always writes a silence config object. */
  lemma SilenceStaysEditable(enableMllm: bool, parameters: Value, ms: real, action: string, content: string)
    requires !enableMllm
    ensures SilenceEditable(enableMllm, EditSilenceTimeout(parameters, ms))
    ensures SilenceEditable(enableMllm, EditSilenceAction(parameters, action))
    ensures SilenceEditable(enableMllm, EditSilenceContent(parameters, content))
  {
  }

  /** `parameters.silence_config?.[k]`. */
  function Silence(parameters: Value, k: string): Option<Value> {
    Get(Spread(Field(parameters, "silence_config")), k)
  }

  /**
   * `{...parameters, silence_config: {...fallback, ...silence_config, [k]: v}}`:
   * the edited field takes the new value, every other silence field keeps its
   * existing value and falls back only where there is none.
   */
  function EditSilence(parameters: Value, fallback: Object, k: string, v: Value): (r: Value)
    ensures Silence(r, k) == Some(v)
    ensures forall k2 :: k2 != k ==>
      Silence(r, k2) == if Silence(parameters, k2).Some? then Silence(parameters, k2) else Get(fallback, k2)
    ensures forall k2 :: k2 != "silence_config" ==> Field(r, k2) == Field(parameters, k2)
  {
    var merged := fallback + Spread(Field(parameters, "silence_config"));
    WithField(parameters, "silence_config", Obj(merged[k := v]))
  }

  /** The timeout slider, with fallbacks action 'speak' and content ''. */
  function EditSilenceTimeout(parameters: Value, ms: real): (r: Value)
    ensures Silence(r, "timeout_ms") == Some(Num(ms))
    ensures forall k :: k != "silence_config" ==> Field(r, k) == Field(parameters, k)
  {
    EditSilence(parameters, map["action" := Str("speak"), "content" := Str("")], "timeout_ms", Num(ms))
  }

  /** The action selector, with fallbacks timeout 0 and content ''. */
  function EditSilenceAction(parameters: Value, action: string): (r: Value)
    ensures Silence(r, "action") == Some(Str(action))
    ensures forall k :: k != "silence_config" ==> Field(r, k) == Field(parameters, k)
  {
    EditSilence(parameters, map["timeout_ms" := Num(0.0), "content" := Str("")], "action", Str(action))
  }

  /** The content input, with fallbacks timeout 1000 and action 'speak'. */
  function EditSilenceContent(parameters: Value, content: string): (r: Value)
    ensures Silence(r, "content") == Some(Str(content))
    ensures forall k :: k != "silence_config" ==> Field(r, k) == Field(parameters, k)
  {
    EditSilence(parameters, map["timeout_ms" := Num(1000.0), "action" := Str("speak")], "content", Str(content))
  }

  /** Existing silence values win over the inline fallbacks; the fallbacks fill only gaps. */
  lemma SilenceFallbacks(parameters: Value, ms: real, action: string, content: string)
    ensures Silence(EditSilenceTimeout(parameters, ms), "action") ==
      if Silence(parameters, "action").Some? then Silence(parameters, "action") else Some(Str("speak"))
    ensures Silence(EditSilenceTimeout(parameters, ms), "content") ==
      if Silence(parameters, "content").Some? then Silence(parameters, "content") else Some(Str(""))
    ensures Silence(EditSilenceAction(parameters, action), "action") == Some(Str(action))
    ensures Silence(EditSilenceAction(parameters, action), "timeout_ms") ==
      if Silence(parameters, "timeout_ms").Some? then Silence(parameters, "timeout_ms") else Some(Num(0.0))
    ensures Silence(EditSilenceAction(parameters, action), "content") ==
      if Silence(parameters, "content").Some? then Silence(parameters, "content") else Some(Str(""))
    ensures Silence(EditSilenceContent(parameters, content), "content") == Some(Str(content))
    ensures Silence(EditSilenceContent(parameters, content), "timeout_ms") ==
      if Silence(parameters, "timeout_ms").Some? then Silence(parameters, "timeout_ms") else Some(Num(1000.0))
    ensures Silence(EditSilenceContent(parameters, content), "action") ==
      if Silence(parameters, "action").Some? then Silence(parameters, "action") else Some(Str("speak"))
  {
  }
}

=== FILE: json.dfy ===
/**
 * JSON values as the configuration editor handles them: vendor configs are
 * untyped objects edited with object spread. A key holding `undefined` is
 * the same as an absent key, since neither survives stringification.
 */
module Json {
  import opened Wrappers
  import Text

  datatype Value =
    | Null
    | Bool(b: bool)
    | Num(n: real)
    | Str(s: string)
    | Arr(items: seq<Value>)
    | Obj(fields: map<string, Value>)

  type Object = map<string, Value>

  /** `o[k]`, None for undefined. */
  function Get(o: Object, k: string): Option<Value> {
    if k in o then Some(o[k]) else None
  }

  /** Property access on any value: `v?.k` (primitives and arrays have none of the keys used here). */
  function Prop(v: Option<Value>, k: string): Option<Value> {
    if v.Some? && v.value.Obj? then Get(v.value.fields, k) else None
  }

  /** `v.k` on a value that is present. */
  function Field(v: Value, k: string): Option<Value> {
    Prop(Some(v), k)
  }

  /** `v.params?.[k]`, where a non-object `params` has no entries. */
  function Param(v: Value, k: string): Option<Value> {
    Get(Spread(Field(v, "params")), k)
  }

  /** JavaScript truthiness; undefined is None. */
  predicate Truthy(v: Option<Value>) {
    match v
    case None => false
    case Some(Null) => false
    case Some(Bool(b)) => b
    case Some(Num(n)) => n != 0.0
    case Some(Str(s)) => s != ""
    case Some(Arr(_)) => true
    case Some(Obj(_)) => true
  }

  /** `v || fallback`. */
  function Or(v: Option<Value>, fallback: Value): (r: Value)
    ensures Truthy(v) ==> r == v.value
    ensures !Truthy(v) ==> r == fallback
  {
    if Truthy(v) then v.value else fallback
  }

  /** The own properties `{...v}` copies: those of an object, none for null, undefined or a number or boolean. */
  function Spread(v: Option<Value>): Object {
    if v.Some? && v.value.Obj? then v.value.fields else map[]
  }

  /** `{...o, [k]: v}`; a `None` value stands for `undefined`, which drops the key. */
  function With(o: Object, k: string, v: Option<Value>): (r: Object)
    ensures Get(r, k) == v
    ensures forall k2 :: k2 != k ==> Get(r, k2) == Get(o, k2)
  {
    match v
    case None => o - {k}
    case Some(x) => o[k := x]
  }

  /** `{...cfg, params: {...cfg.params, [k]: v}}`: the nested param edit every vendor form uses. */
  function WithParam(cfg: Value, k: string, v: Value): (r: Value)
    ensures r.Obj? && Field(r, "params").Some? && Field(r, "params").value.Obj?
    ensures Param(r, k) == Some(v)
    ensures forall k2 :: k2 != k ==> Param(r, k2) == Param(cfg, k2)
    ensures forall k2 :: k2 != "params" ==> Field(r, k2) == Field(cfg, k2)
  {
    var params := Spread(Prop(Some(cfg), "params"));
    Obj(With(Spread(Some(cfg)), "params", Some(Obj(With(params, k, Some(v))))))
  }

  /** `{...cfg, [k]: v}` on a config value. */
  function WithField(cfg: Value, k: string, v: Value): (r: Value)
    ensures r.Obj? && Field(r, k) == Some(v)
    ensures forall k2 :: k2 != k ==> Field(r, k2) == Field(cfg, k2)
  {
    Obj(With(Spread(Some(cfg)), k, Some(v)))
  }

  /** A string-valued field as a component reads it; anything else reads as "". */
  function StrOf(v: Option<Value>): string {
    if v.Some? && v.value.Str? then v.value.s else ""
  }

  /** The largest magnitude below which `String()` writes a whole number in plain decimal digits. */
  const PlainDecimalLimit: real := 1000000000000000000000.0

  /** A whole number that `String()` writes as plain decimal digits. */
  predicate PlainInteger(x: real) {
    x == x.Floor as real && -PlainDecimalLimit < x < PlainDecimalLimit
  }

  /**
   * `String(v)`, where the model follows it: an array is its elements as
   * `join` renders them, separated by ",", and an object is "[object Object]".
   * An object with its own `toString` key throws, since a JSON value is never
   * callable and `valueOf` gives back the object itself; that is None. A
   * number is rendered only when it is a whole number below 10^21 in
   * magnitude; fractions and exponent forms give None too.
   */
  function ToText(v: Value): (r: Option<string>)
    ensures !v.Num? && !v.Arr? && !v.Obj? ==> r.Some?
    ensures v.Obj? ==> (r.Some? <==> "toString" !in v.fields)
    ensures v.Obj? && "toString" !in v.fields ==> r == Some("[object Object]")
    ensures v.Str? ==> r == Some(v.s)
    ensures v.Num? ==> (r.Some? <==> PlainInteger(v.n))
    ensures v.Arr? ==> (r.Some? <==> forall i :: 0 <= i < |v.items| ==> JoinedText(v.items[i]).Some?)
    decreases v, 1
  {
    match v
    case Null => Some("null")
    case Bool(b) => Some(if b then "true" else "false")
    case Num(x) => if PlainInteger(x) then Some(Text.IntToString(x.Floor)) else None
    case Str(s) => Some(s)
    case Arr(items) => ElementsText(v, items)
    case Obj(fields) => if "toString" in fields then None else Some("[object Object]")
  }

  /** How `Array.prototype.join` renders one element: null (and undefined) as "", anything else by `String()`. */
  function JoinedText(v: Value): (r: Option<string>)
    decreases v, 2
  {
    if v.Null? then Some("") else ToText(v)
  }

  /** The elements of the array `a` joined with "," as `String(a)` does; None when one of them is not rendered. */
  function ElementsText(a: Value, items: seq<Value>): (r: Option<string>)
    requires a.Arr? && items <= a.items
    ensures r.Some? <==> forall i :: 0 <= i < |items| ==> JoinedText(items[i]).Some?
    decreases a, 0, |items|
  {
    if |items| == 0 then Some("")
    else
      match (ElementsText(a, items[..|items| - 1]), JoinedText(items[|items| - 1]))
      case (Some(init), Some(last)) => Some(if |items| == 1 then last else init + "," + last)
      case _ => None
  }
}

=== FILE: llm.dfy ===
/** The language-model section of the configuration editor. */
module Llm {
  import opened Wrappers
  import opened Json
  import Text

  const HelpfulPrompt := Arr([Obj(map["role" := Str("system"), "content" := Str("You are a helpful chatbot.")])])

  const DefaultOpenAi := Obj(map[
    "url" := Str("https://api.openai.com/v1/chat/completions"),
    "api_key" := Str("<YOUR_KEY>"),
    "system_messages" := HelpfulPrompt,
    "greeting_message" := Str("Hello, how can I help you today?"),
    "failure_message" := Str("Hold on a second."),
    "max_history" := Num(32.0),
    "params" := Obj(map["model" := Str("gpt-4o-mini")])])

  const DefaultGoogle := Obj(map[
    "url" := Str("https://generativelanguage.googleapis.com/v1beta/models/gemini-2.0-flash:streamGenerateContent?alt=sse&key=<api_key>"),
    "system_messages" := HelpfulPrompt,
    "greeting_message" := Str("Hello, how can I help you today?"),
    "failure_message" := Str("I'm sorry, I'm having trouble processing your request. Please try again."),
    "max_history" := Num(32.0),
    "params" := Obj(map["model" := Str("gemini-2.0-flash-001")]),
    "style" := Str("gemini")])

  const DefaultAnthropic := Obj(map[
    "url" := Str("https://api.anthropic.com/v1/messages"),
    "api_key" := Str("<YOUR_KEY>"),
    "headers" := Str("{\"anthropic-version\":\"2023-06-01\"}"),
    "system_messages" := HelpfulPrompt,
    "greeting_message" := Str("Hello, how can I help you today?"),
    "failure_message" := Str("Hold on a second."),
    "max_history" := Num(32.0),
    "params" := Obj(map["model" := Str("claude-3-5-haiku-latest"), "max_tokens" := Num(1024.0)]),
    "style" := Str("anthropic")])

  const DefaultDify := Obj(map[
    "url" := Str("https://qv90***.ai-plugin.io/convoai-start"),
    "api_key" := Str("<YOUR_KEY>"),
    "system_messages" := HelpfulPrompt,
    "greeting_message" := Str("Hello, how can I help you today?"),
    "failure_message" := Str("Hold on a second."),
    "max_history" := Num(32.0),
    "params" := Obj(map["model" := Str("default")]),
    "style" := Str("dify")])

  /** The selected provider name and the config the form edits. */
  datatype Form = Form(llmType: string, config: Value)

  /** The default a provider choice selects; 'google' and 'gemini' share one, anything unknown is OpenAI's. */
  function DefaultFor(llmType: string): (cfg: Value)
    ensures cfg.Obj?
    ensures llmType in {"google", "gemini"} ==> Field(cfg, "style") == Some(Str("gemini"))
    ensures llmType == "anthropic" ==>
      Field(cfg, "style") == Some(Str("anthropic")) && Param(cfg, "max_tokens") == Some(Num(1024.0))
    ensures llmType == "dify" ==> Field(cfg, "style") == Some(Str("dify"))
    ensures llmType !in {"google", "gemini", "anthropic", "dify"} ==> cfg == DefaultOpenAi && Field(cfg, "style").None?
  {
    match llmType
    case "openai" => DefaultOpenAi
    case "google" => DefaultGoogle
    case "gemini" => DefaultGoogle
    case "anthropic" => DefaultAnthropic
    case "dify" => DefaultDify
    case _ => DefaultOpenAi
  }

  /** handleLlmTypeChange: the selector keeps the chosen name, the config is replaced wholesale. */
  function ChangeType(f: Form, llmType: string): (r: Form)
    ensures r.llmType == llmType && r.config == DefaultFor(llmType)
  {
    Form(llmType, DefaultFor(llmType))
  }

  /**
   * `message.content` as `join` renders it. A message that is not an object
   * has no `content`, which is undefined and renders as ""; so does a missing
   * or null content. Any other content is rendered by `String()`. None for a
   * null message, where reading `content` throws, and for a content whose
   * `String()` gives None in `Json.ToText`.
   */
  function ContentText(message: Value): (r: Option<string>)
    ensures message.Null? ==> r.None?
    ensures !message.Null? && !message.Obj? ==> r == Some("")
    ensures Field(message, "content") in {None, Some(Null)} && !message.Null? ==> r == Some("")
    ensures Field(message, "content").Some? ==> r == JoinedText(Field(message, "content").value)
    ensures r.None? <==> message.Null? || (Field(message, "content").Some? && ToText(Field(message, "content").value).None?)
  {
    match message
    case Null => None
    case Obj(fields) =>
      (match Get(fields, "content")
       case None => Some("")
       case Some(content) => JoinedText(content))
    case _ => Some("")
  }

  function ContentTexts(messages: seq<Value>): (r: Option<seq<string>>)
    ensures r.Some? ==> |r.value| == |messages|
    ensures r.Some? <==> forall i :: 0 <= i < |messages| ==> ContentText(messages[i]).Some?
    ensures r.Some? ==> forall i :: 0 <= i < |messages| ==> r.value[i] == ContentText(messages[i]).value
  {
    if |messages| == 0 then Some([])
    else
      match (ContentTexts(messages[..|messages| - 1]), ContentText(messages[|messages| - 1]))
      case (Some(init), Some(last)) => Some(init + [last])
      case _ => None
  }

  /**
   * The prompt the text area shows: the contents of system_messages joined
   * with newlines, or "" when there are none. None where the source would
   * throw (a list that is not an array, a null message, an object content
   * with its own `toString`) or where a content holds a number the model
   * does not render.
   */
  function SystemPrompt(cfg: Value): (r: Option<string>)
    ensures Field(cfg, "system_messages") == Some(Arr([])) ==> r == Some("")
    ensures Field(cfg, "system_messages") in {None, Some(Null)} ==> r == Some("")
    // a list of messages shows iff every content is readable ...
    ensures Field(cfg, "system_messages").Some? && Field(cfg, "system_messages").value.Arr? ==>
      (r.Some? <==> ContentTexts(Field(cfg, "system_messages").value.items).Some?)
    // ... and splitting the shown text at newlines gives back the single-line contents, in order
    ensures Field(cfg, "system_messages").Some? && Field(cfg, "system_messages").value.Arr?
            && |Field(cfg, "system_messages").value.items| >= 1 && r.Some?
            && (forall i :: 0 <= i < |Field(cfg, "system_messages").value.items| ==>
                  '\n' !in ContentText(Field(cfg, "system_messages").value.items[i]).value)
            ==> Text.Split(r.value, '\n') == ContentTexts(Field(cfg, "system_messages").value.items).value
  {
    match Field(cfg, "system_messages")
    case None => Some("")
    case Some(Null) => Some("")
    case Some(Arr(messages)) =>
      (match ContentTexts(messages)
       case Some(texts) =>
         (if |texts| >= 1 && forall i :: 0 <= i < |texts| ==> '\n' !in texts[i] then
            Text.SplitJoin(texts, '\n');
            Some(Text.Join(texts, "\n"))
          else Some(Text.Join(texts, "\n")))
       case None => None)
    case Some(_) => None
  }

  /**
   * A list of messages shows a prompt unless one message is null or a
   * content is not rendered: messages that are not objects all render, and
   * so do contents that are not numbers, arrays or objects with their own
   * `toString`.
   */
  lemma ListWithoutNullShows(cfg: Value)
    requires Field(cfg, "system_messages").Some? && Field(cfg, "system_messages").value.Arr?
    requires forall i :: 0 <= i < |Field(cfg, "system_messages").value.items| ==>
      var message := Field(cfg, "system_messages").value.items[i];
      !message.Null? && (Field(message, "content").Some? ==>
        !Field(message, "content").value.Num? && !Field(message, "content").value.Arr?
        && !(Field(message, "content").value.Obj? && "toString" in Field(message, "content").value.fields))
    ensures SystemPrompt(cfg).Some?
  {
  }

  /** With a single message, the prompt is that message's content text. */
  lemma {:induction false} OneMessage(m: Value)
    ensures SystemPrompt(Obj(map["system_messages" := Arr([m])])) == ContentText(m)
  {
    assert [m][..0] == [];
    assert ContentTexts([]) == Some([]);
    if ContentText(m).Some? {
      assert [] + [ContentText(m).value] == [ContentText(m).value];
      assert ContentTexts([m]) == Some([ContentText(m).value]);
    }
  }

  /** A primitive message has no `content`, so it shows as "". */
  lemma PrimitiveMessageShowsEmpty()
    ensures SystemPrompt(Obj(map["system_messages" := Arr([Str("hi")])])) == Some("")
    ensures SystemPrompt(Obj(map["system_messages" := Arr([Num(5.0)])])) == Some("")
  {
    OneMessage(Str("hi"));
    OneMessage(Num(5.0));
  }

  /** A number or boolean content shows as `String()` writes it. */
  lemma ScalarContentShows()
    ensures SystemPrompt(Obj(map["system_messages" := Arr([Obj(map["content" := Num(5.0)])])])) == Some("5")
    ensures SystemPrompt(Obj(map["system_messages" := Arr([Obj(map["content" := Bool(true)])])])) == Some("true")
  {
    OneMessage(Obj(map["content" := Num(5.0)]));
    assert (5.0).Floor == 5;
    assert Text.IntToString(5) == "5";
    OneMessage(Obj(map["content" := Bool(true)]));
  }

  /** An array content shows as its elements joined with ",", null as "". */
  lemma ArrayContentShows()
    ensures SystemPrompt(Obj(map["system_messages" := Arr([Obj(map["content" := Arr([Str("a"), Null, Str("b")])])])])) == Some("a,,b")
  {
    var content := Arr([Str("a"), Null, Str("b")]);
    OneMessage(Obj(map["content" := content]));
    var items := content.items;
    assert items[..0] == [] && items[..1] == [Str("a")] && items[..2] == [Str("a"), Null];
    assert ElementsText(content, items[..1]) == Some("a");
    assert items[..2][..1] == items[..1] && items[..2][1] == Null && JoinedText(Null) == Some("");
    assert "a" + "," + "" == "a,";
    assert ElementsText(content, items[..2]) == Some("a,");
    assert items[..2] == items[..|items| - 1] && items[2] == Str("b");
    assert "a," + "," + "b" == "a,,b";
    assert ElementsText(content, items) == Some("a,,b");
  }

  /** An object content with its own `toString` key makes `String()` throw, so nothing is shown. */
  lemma ToStringKeyShowsNothing()
    ensures SystemPrompt(Obj(map["system_messages" := Arr([Obj(map["content" := Obj(map["toString" := Num(1.0)])])])])) == None
    ensures SystemPrompt(Obj(map["system_messages" := Arr([Obj(map["content" := Obj(map["valueOf" := Num(1.0)])])])])) == Some("[object Object]")
  {
    OneMessage(Obj(map["content" := Obj(map["toString" := Num(1.0)])]));
    OneMessage(Obj(map["content" := Obj(map["valueOf" := Num(1.0)])]));
  }

  /** A fraction, even inside an array content, is not rendered by the model. */
  lemma FractionShowsNothing()
    ensures SystemPrompt(Obj(map["system_messages" := Arr([Obj(map["content" := Arr([Num(1.5)])])])])) == None
  {
    OneMessage(Obj(map["content" := Arr([Num(1.5)])]));
    assert !PlainInteger(1.5);
  }

  /** A null message throws in the source. */
  lemma NullMessageShowsNothing()
    ensures SystemPrompt(Obj(map["system_messages" := Arr([Null])])) == None
  {
    OneMessage(Null);
  }

  /** The prompt text area: the list becomes exactly one system message holding the text. */
  function EditSystemPrompt(f: Form, text: string): (r: Form)
    ensures r.llmType == f.llmType
    ensures Field(r.config, "system_messages") == Some(Arr([Obj(map["role" := Str("system"), "content" := Str(text)])]))
    ensures forall k :: k != "system_messages" ==> Field(r.config, k) == Field(f.config, k)
  {
    f.(config := WithField(f.config, "system_messages", Arr([Obj(map["role" := Str("system"), "content" := Str(text)])])))
  }

  /** Whatever is typed into the prompt is what the text area shows next. */
  lemma {:induction false} SystemPromptRoundTrip(f: Form, text: string)
    ensures SystemPrompt(EditSystemPrompt(f, text).config) == Some(text)
  {
    var message := Obj(map["role" := Str("system"), "content" := Str(text)]);
    assert ContentText(message) == Some(text);
    assert ContentTexts([message]) == Some([text]) by {
      assert [message][..0] == [];
      assert ContentTexts([]) == Some([]);
      assert [] + [text] == [text];
    }
  }

  /** A top-level field input (greeting_message, failure_message, max_history, api_key): only that field changes. */
  function EditField(f: Form, k: string, v: Value): (r: Form)
    ensures r.llmType == f.llmType
    ensures Field(r.config, k) == Some(v)
    ensures forall k2 :: k2 != k ==> Field(r.config, k2) == Field(f.config, k2)
  {
    f.(config := WithField(f.config, k, v))
  }

  /** The model input: `params: {...params, model}`. */
  function EditModel(f: Form, model: string): (r: Form)
    ensures r.llmType == f.llmType
    ensures Param(r.config, "model") == Some(Str(model))
    ensures forall k :: k != "model" ==> Param(r.config, k) == Param(f.config, k)
    ensures forall k :: k != "params" ==> Field(r.config, k) == Field(f.config, k)
  {
    f.(config := WithParam(f.config, "model", Str(model)))
  }

  /** The API key input is offered for these providers only. */
  predicate ShowsApiKey(f: Form) {
    f.llmType in {"openai", "anthropic", "dify"}
  }

  /**
   * After a provider choice the API key input is offered exactly for OpenAI,
   * Anthropic and Dify, and then it shows the default's placeholder key; the
   * other edits never change whether it is offered.
   */
  lemma ProviderDecidesApiKey(f: Form, t: string, k: string, v: Value, text: string)
    ensures ShowsApiKey(ChangeType(f, t)) <==> t in {"openai", "anthropic", "dify"}
    ensures ShowsApiKey(ChangeType(f, t)) ==> Field(ChangeType(f, t).config, "api_key") == Some(Str("<YOUR_KEY>"))
    ensures ShowsApiKey(EditField(f, k, v)) == ShowsApiKey(f)
    ensures ShowsApiKey(EditSystemPrompt(f, text)) == ShowsApiKey(f)
    ensures ShowsApiKey(EditModel(f, text)) == ShowsApiKey(f)
  {
  }
}

=== FILE: metrics.dfy ===
/**
 * The latency table: metric samples grouped per turn and per pipeline stage
 * (ASR, LLM, TTS), turns in ascending order, one sorted column list per
 * stage, and a per-turn total.
 */
module Metrics {
  import opened Wrappers
  import Text

  /** A latency sample from the stream-message callback. */
  datatype MetricMessage = MetricMessage(metricName: string, stage: string, turnId: int, latencyMs: int)

  datatype Stage = Asr | Llm | Tts

  /** One `name: latency` property of a stage object. */
  datatype Entry = Entry(name: string, latencyMs: int)

  /**
   * Latencies of one stage in one turn: the properties of a JavaScript
   * object, in insertion order, names distinct.
   */
  type StageMetrics = seq<Entry>

  /** `m[name]`, None for undefined. */
  function Lookup(m: StageMetrics, name: string): Option<int> {
    if |m| == 0 then None
    else if m[0].name == name then Some(m[0].latencyMs)
    else Lookup(m[1..], name)
  }

  /** `m[name] = v`: overwrite in place, or append a new property. */
  function Assign(m: StageMetrics, name: string, v: int): (r: StageMetrics)
    ensures Lookup(r, name) == Some(v)
    ensures forall n :: n != name ==> Lookup(r, n) == Lookup(m, n)
    ensures |r| == if Lookup(m, name).Some? then |m| else |m| + 1
  {
    if |m| == 0 then [Entry(name, v)]
    else if m[0].name == name then
      [Entry(name, v)] + m[1..]
    else
      var rest := Assign(m[1..], name, v);
      var r := [m[0]] + rest;
      assert r[1..] == rest;
      r
  }

  /** `Object.values(m).reduce((a, b) => a + b, 0)`. */
  function Sum(m: StageMetrics): int {
    if |m| == 0 then 0 else m[0].latencyMs + Sum(m[1..])
  }

  /** Overwriting a latency changes the sum by the difference; a new property adds its latency. */
  lemma {:induction false} AssignSum(m: StageMetrics, name: string, v: int)
    ensures Sum(Assign(m, name, v)) == Sum(m) + v - Lookup(m, name).GetOr(0)
  {
    if |m| > 0 {
      if m[0].name == name {
        assert [Entry(name, v)] + m[1..] == Assign(m, name, v);
        assert ([Entry(name, v)] + m[1..])[1..] == m[1..];
      } else {
        AssignSum(m[1..], name, v);
        assert Assign(m, name, v)[1..] == Assign(m[1..], name, v);
      }
    }
  }

  datatype TurnMetric = TurnMetric(turnId: int, asr: Option<StageMetrics>, llm: Option<StageMetrics>, tts: Option<StageMetrics>)

  /** The stage a module name designates, compared case-insensitively; None for any other module. */
  function StageOf(name: string): (r: Option<Stage>)
    ensures r == Some(Asr) <==> Text.ToLowerAscii(name) == "asr"
    ensures r == Some(Llm) <==> Text.ToLowerAscii(name) == "llm"
    ensures r == Some(Tts) <==> Text.ToLowerAscii(name) == "tts"
  {
    var lower := Text.ToLowerAscii(name);
    if lower == "asr" then Some(Asr)
    else if lower == "llm" then Some(Llm)
    else if lower == "tts" then Some(Tts)
    else None
  }

  lemma {:induction false} LowerIdempotent(s: string)
    ensures Text.ToLowerAscii(Text.ToLowerAscii(s)) == Text.ToLowerAscii(s)
  {
    if |s| > 0 {
      LowerIdempotent(s[1..]);
    }
  }

  /** Case does not matter: a module name and its lower-case form select the same stage. */
  lemma StageOfIgnoresCase(name: string)
    ensures StageOf(name) == StageOf(Text.ToLowerAscii(name))
  {
    LowerIdempotent(name);
  }

  function Get(t: TurnMetric, st: Stage): Option<StageMetrics> {
    match st
    case Asr => t.asr
    case Llm => t.llm
    case Tts => t.tts
  }

  function Put(t: TurnMetric, st: Stage, m: StageMetrics): (r: TurnMetric)
    ensures Get(r, st) == Some(m) && r.turnId == t.turnId
    ensures forall o :: o != st ==> Get(r, o) == Get(t, o)
  {
    match st
    case Asr => t.(asr := Some(m))
    case Llm => t.(llm := Some(m))
    case Tts => t.(tts := Some(m))
  }

  // ---- grouping ---------------------------------------------------------------

  /** One step of the `reduce`: make sure the turn exists, then store the latency if the stage is known. */
  function Record(acc: map<int, TurnMetric>, m: MetricMessage): (r: map<int, TurnMetric>)
    ensures r.Keys == acc.Keys + {m.turnId}
    ensures forall k :: k in acc && k != m.turnId ==> r[k] == acc[k]
    ensures r[m.turnId].turnId == if m.turnId in acc then acc[m.turnId].turnId else m.turnId
    ensures StageOf(m.stage).None? ==>
      r[m.turnId] == if m.turnId in acc then acc[m.turnId] else TurnMetric(m.turnId, None, None, None)
  {
    var acc1 := if m.turnId in acc then acc else acc[m.turnId := TurnMetric(m.turnId, None, None, None)];
    match StageOf(m.stage)
    case None => acc1
    case Some(st) =>
      var row := acc1[m.turnId];
      var stored := Get(row, st).GetOr([]);
      acc1[m.turnId := Put(row, st, Assign(stored, m.metricName, m.latencyMs))]
  }

  /** `metrics.reduce(Record, {})`. */
  function Group(ms: seq<MetricMessage>): map<int, TurnMetric> {
    if |ms| == 0 then map[] else Record(Group(ms[..|ms| - 1]), ms[|ms| - 1])
  }

  /** Metric `m` lands in cell (turn, stage, name). */
  predicate Targets(m: MetricMessage, turn: int, st: Stage, name: string) {
    m.turnId == turn && StageOf(m.stage) == Some(st) && m.metricName == name
  }

  /** A table cell: `turn[stage]?.[name]`, rendered as '-' when absent. */
  function Cell(table: map<int, TurnMetric>, turn: int, st: Stage, name: string): Option<int> {
    if turn in table then Lookup(Get(table[turn], st).GetOr([]), name) else None
  }

  /** Every input turn gets a row, whatever its module, and no other turn does; rows know their turn. */
  lemma {:induction false} GroupTurns(ms: seq<MetricMessage>)
    ensures forall k :: k in Group(ms) <==> exists m :: m in ms && m.turnId == k
    ensures forall k :: k in Group(ms) ==> Group(ms)[k].turnId == k
  {
    if |ms| > 0 {
      var init := ms[..|ms| - 1];
      GroupTurns(init);
      assert ms == init + [ms[|ms| - 1]];
    }
  }

  lemma CellRecorded(acc: map<int, TurnMetric>, m: MetricMessage)
    requires StageOf(m.stage).Some?
    ensures Cell(Record(acc, m), m.turnId, StageOf(m.stage).value, m.metricName) == Some(m.latencyMs)
  {
  }

  lemma CellUnchanged(acc: map<int, TurnMetric>, m: MetricMessage, turn: int, st: Stage, name: string)
    requires !Targets(m, turn, st, name)
    ensures Cell(Record(acc, m), turn, st, name) == Cell(acc, turn, st, name)
  {
  }

  /** A cell holds a value exactly when some sample targets it. */
  lemma {:induction false} GroupCellPresent(ms: seq<MetricMessage>, turn: int, st: Stage, name: string)
    ensures Cell(Group(ms), turn, st, name).Some? <==>
      exists j :: 0 <= j < |ms| && Targets(ms[j], turn, st, name)
  {
    if |ms| > 0 {
      var init := ms[..|ms| - 1];
      var last := ms[|ms| - 1];
      GroupCellPresent(init, turn, st, name);
      assert Group(ms) == Record(Group(init), last);
      assert forall j :: 0 <= j < |init| ==> init[j] == ms[j];
      if Targets(last, turn, st, name) {
        CellRecorded(Group(init), last);
      } else {
        CellUnchanged(Group(init), last, turn, st, name);
      }
    }
  }

  /** A cell holds the latency of the last sample that targets it: later samples overwrite. */
  lemma {:induction false} GroupCellLast(ms: seq<MetricMessage>, j: int)
    requires 0 <= j < |ms| && StageOf(ms[j].stage).Some?
    requires forall i :: j < i < |ms| ==> !Targets(ms[i], ms[j].turnId, StageOf(ms[j].stage).value, ms[j].metricName)
    ensures Cell(Group(ms), ms[j].turnId, StageOf(ms[j].stage).value, ms[j].metricName) == Some(ms[j].latencyMs)
  {
    var init := ms[..|ms| - 1];
    var last := ms[|ms| - 1];
    assert Group(ms) == Record(Group(init), last);
    if j == |ms| - 1 {
      CellRecorded(Group(init), last);
    } else {
      assert init[j] == ms[j];
      GroupCellLast(init, j);
      CellUnchanged(Group(init), last, ms[j].turnId, StageOf(ms[j].stage).value, ms[j].metricName);
    }
  }

  // ---- ordering ---------------------------------------------------------------

  predicate StrictlyIncreasing(s: seq<int>) {
    forall i, j :: 0 <= i < j < |s| ==> s[i] < s[j]
  }

  /** Adds `x` to an ascending sequence, keeping it ascending and free of repeats. */
  function InsertInt(xs: seq<int>, x: int): (r: seq<int>)
    requires StrictlyIncreasing(xs)
    ensures StrictlyIncreasing(r)
    ensures forall y :: y in r <==> y in xs || y == x
  {
    if |xs| == 0 then [x]
    else if x == xs[0] then xs
    else if x < xs[0] then [x] + xs
    else
      var rest := InsertInt(xs[1..], x);
      assert forall k :: 0 <= k < |xs| - 1 ==> xs[0] < xs[1..][k];
      assert forall j :: 0 <= j < |rest| ==> rest[j] in rest && xs[0] < rest[j];
      [xs[0]] + rest
  }

  /** The distinct turn ids of the samples in ascending order. */
  function SortedTurns(ms: seq<MetricMessage>): (r: seq<int>)
    ensures StrictlyIncreasing(r)
    ensures forall k :: k in r <==> exists m :: m in ms && m.turnId == k
  {
    if |ms| == 0 then []
    else
      var init := ms[..|ms| - 1];
      var r := InsertInt(SortedTurns(init), ms[|ms| - 1].turnId);
      assert ms == init + [ms[|ms| - 1]];
      r
  }

  /** `Object.values(groupedMetrics).sort((a, b) => a.turn_id - b.turn_id)`. */
  function Rows(ms: seq<MetricMessage>): (rows: seq<TurnMetric>)
    ensures forall i, j :: 0 <= i < j < |rows| ==> rows[i].turnId < rows[j].turnId
  {
    GroupTurns(ms);
    var table := Group(ms);
    var keys := SortedTurns(ms);
    assert forall i :: 0 <= i < |keys| ==> keys[i] in keys && keys[i] in table && table[keys[i]].turnId == keys[i];
    seq(|keys|, i requires 0 <= i < |keys| => table[keys[i]])
  }

  /** The rows are exactly the grouped turns: each input turn once, nothing else. */
  lemma RowsAreTheTable(ms: seq<MetricMessage>)
    ensures forall k :: k in Group(ms) ==> exists i :: 0 <= i < |Rows(ms)| && Rows(ms)[i] == Group(ms)[k]
    ensures forall i :: 0 <= i < |Rows(ms)| ==>
      (Rows(ms)[i].turnId in Group(ms) && Rows(ms)[i] == Group(ms)[Rows(ms)[i].turnId])
  {
    GroupTurns(ms);
    var keys := SortedTurns(ms);
    var rows := Rows(ms);
    forall i | 0 <= i < |keys|
      ensures keys[i] in Group(ms)
    {
      assert keys[i] in keys;
      var m :| m in ms && m.turnId == keys[i];
    }
    assert |rows| == |keys| && forall i :: 0 <= i < |keys| ==> rows[i] == Group(ms)[keys[i]];
    forall k | k in Group(ms)
      ensures exists i :: 0 <= i < |Rows(ms)| && Rows(ms)[i] == Group(ms)[k]
    {
      assert k in keys;
      var i :| 0 <= i < |keys| && keys[i] == k;
      assert Rows(ms)[i] == Group(ms)[k];
    }
  }

  // ---- column names -----------------------------------------------------------

  /** Code-unit order of JavaScript's default `sort()` on strings. */
  predicate LexLess(a: string, b: string) {
    if |a| == 0 then |b| > 0
    else if |b| == 0 then false
    else if a[0] != b[0] then a[0] < b[0]
    else LexLess(a[1..], b[1..])
  }

  lemma {:induction false} LexIrreflexive(a: string)
    ensures !LexLess(a, a)
  {
    if |a| > 0 {
      LexIrreflexive(a[1..]);
    }
  }

  lemma {:induction false} LexAsymmetric(a: string, b: string)
    requires LexLess(a, b)
    ensures !LexLess(b, a)
  {
    if |a| > 0 && |b| > 0 && a[0] == b[0] {
      LexAsymmetric(a[1..], b[1..]);
    }
  }

  lemma {:induction false} LexTransitive(a: string, b: string, c: string)
    requires LexLess(a, b) && LexLess(b, c)
    ensures LexLess(a, c)
  {
    if |a| > 0 && |b| > 0 && |c| > 0 && a[0] == b[0] && b[0] == c[0] {
      LexTransitive(a[1..], b[1..], c[1..]);
    }
  }

  lemma {:induction false} LexTotal(a: string, b: string)
    requires a != b
    ensures LexLess(a, b) || LexLess(b, a)
  {
    if |a| > 0 && |b| > 0 && a[0] == b[0] {
      assert a == [a[0]] + a[1..] && b == [b[0]] + b[1..];
      LexTotal(a[1..], b[1..]);
    }
  }

  predicate LexSorted(s: seq<string>) {
    forall i, j :: 0 <= i < j < |s| ==> LexLess(s[i], s[j])
  }

  /** Adds `x` to a sorted sequence of names, keeping it sorted and free of repeats. */
  function InsertName(xs: seq<string>, x: string): (r: seq<string>)
    requires LexSorted(xs)
    ensures LexSorted(r)
    ensures forall y :: y in r <==> y in xs || y == x
  {
    if |xs| == 0 then [x]
    else if x == xs[0] then xs
    else if LexLess(x, xs[0]) then
      assert forall j :: 0 <= j < |xs| ==> LexLess(x, xs[j]) by {
        forall j | 0 < j < |xs|
          ensures LexLess(x, xs[j])
        {
          LexTransitive(x, xs[0], xs[j]);
        }
      }
      [x] + xs
    else
      LexTotal(x, xs[0]);
      var rest := InsertName(xs[1..], x);
      assert forall j :: 0 <= j < |rest| ==> LexLess(xs[0], rest[j]) by {
        forall j | 0 <= j < |rest|
          ensures LexLess(xs[0], rest[j])
        {
          if rest[j] != x {
            assert rest[j] in rest;
            var k :| 0 <= k < |xs| - 1 && xs[1..][k] == rest[j];
            assert xs[1..][k] == xs[k + 1];
          }
        }
      }
      [xs[0]] + rest
  }

  /** The names of a stage object. */
  function Names(m: StageMetrics): (r: seq<string>)
    ensures forall n :: n in r <==> Lookup(m, n).Some?
  {
    if |m| == 0 then []
    else
      var r := [m[0].name] + Names(m[1..]);
      assert forall i :: 0 < i < |m| ==> m[1..][i - 1] == m[i];
      r
  }

  function InsertNames(xs: seq<string>, ns: seq<string>): (r: seq<string>)
    requires LexSorted(xs)
    ensures LexSorted(r)
    ensures forall y :: y in r <==> y in xs || y in ns
    decreases |ns|
  {
    if |ns| == 0 then xs else InsertNames(InsertName(xs, ns[0]), ns[1..])
  }

  /**
   * getMetricNamesForModule: the union of the stage's names over all rows,
   * sorted.
   */
  function ColumnNames(rows: seq<TurnMetric>, st: Stage): (r: seq<string>)
    ensures LexSorted(r)
    ensures forall n :: n in r <==>
      exists i :: 0 <= i < |rows| && Lookup(Get(rows[i], st).GetOr([]), n).Some?
  {
    if |rows| == 0 then []
    else
      var init := rows[..|rows| - 1];
      var r := InsertNames(ColumnNames(init, st), Names(Get(rows[|rows| - 1], st).GetOr([])));
      assert forall i :: 0 <= i < |init| ==> init[i] == rows[i];
      r
  }

  /** A sorted name list has no repeats, so each column appears once. */
  lemma ColumnNamesDistinct(rows: seq<TurnMetric>, st: Stage)
    ensures forall i, j :: 0 <= i < j < |ColumnNames(rows, st)| ==> ColumnNames(rows, st)[i] != ColumnNames(rows, st)[j]
  {
    var r := ColumnNames(rows, st);
    forall i, j | 0 <= i < j < |r|
      ensures r[i] != r[j]
    {
      LexIrreflexive(r[i]);
    }
  }

  // ---- totals -------------------------------------------------------------------

  /** An absent stage contributes nothing. */
  function StageSum(o: Option<StageMetrics>): int {
    match o
    case None => 0
    case Some(m) => Sum(m)
  }

  /** The Total column of a row. */
  function RowTotal(t: TurnMetric): int {
    StageSum(t.asr) + StageSum(t.llm) + StageSum(t.tts)
  }

  /**
   * Recording a sample changes its turn's total by the new latency, minus the
   * latency it overwrites; samples of other modules leave it alone.
   */
  lemma RecordTotal(acc: map<int, TurnMetric>, m: MetricMessage)
    requires m.turnId in acc
    ensures RowTotal(Record(acc, m)[m.turnId]) ==
      RowTotal(acc[m.turnId])
      + (match StageOf(m.stage)
         case None => 0
         case Some(st) => m.latencyMs - Cell(acc, m.turnId, st, m.metricName).GetOr(0))
  {
    if StageOf(m.stage).Some? {
      var st := StageOf(m.stage).value;
      var row := acc[m.turnId];
      var stored := Get(row, st).GetOr([]);
      AssignSum(stored, m.metricName, m.latencyMs);
      assert StageSum(Get(row, st)) == Sum(stored);
      var r := Record(acc, m)[m.turnId];
      assert r == Put(row, st, Assign(stored, m.metricName, m.latencyMs));
      assert RowTotal(r) == StageSum(Get(r, Asr)) + StageSum(Get(r, Llm)) + StageSum(Get(r, Tts));
      assert RowTotal(row) == StageSum(Get(row, Asr)) + StageSum(Get(row, Llm)) + StageSum(Get(row, Tts));
    }
  }
}

=== FILE: phone_number.dfy ===
/**
 * The phone-number check in front of the call button: eleven characters,
 * a leading '0', and a value JavaScript's `Number()` does not read as NaN.
 * `Number()` is modelled by the StringNumericLiteral grammar of section
 * 7.1.4.1 of the ECMAScript 2024 language specification.
 */
module PhoneNumber {
  import opened Text

  // ---- Number(s) is not NaN --------------------------------------------------

  /** StrWhiteSpaceChar: WhiteSpace (including every Zs space) or LineTerminator. */
  predicate IsJsSpace(c: char) {
    var n := c as int;
    || n in {0x09, 0x0A, 0x0B, 0x0C, 0x0D, 0x20, 0xA0, 0x1680, 0x2028, 0x2029, 0x202F, 0x205F, 0x3000, 0xFEFF}
    || 0x2000 <= n <= 0x200A
  }

  function TrimStart(s: string): (r: string)
    ensures |r| <= |s| && r == s[|s| - |r|..]
    ensures |r| > 0 ==> !IsJsSpace(r[0])
  {
    if |s| > 0 && IsJsSpace(s[0]) then TrimStart(s[1..]) else s
  }

  function TrimEnd(s: string): (r: string)
    ensures |r| <= |s| && r == s[..|r|]
    ensures |r| > 0 ==> !IsJsSpace(r[|r| - 1])
  {
    if |s| > 0 && IsJsSpace(s[|s| - 1]) then TrimEnd(s[..|s| - 1]) else s
  }

  predicate IsHexDigit(c: char) { IsDigit(c) || 'a' <= c <= 'f' || 'A' <= c <= 'F' }
  predicate IsOctalDigit(c: char) { '0' <= c <= '7' }
  predicate IsBinaryDigit(c: char) { c == '0' || c == '1' }

  /** DecimalDigits: one or more decimal digits. */
  predicate Digits1(s: string) { |s| > 0 && AllDigits(s) }

  /** NonDecimalIntegerLiteral: 0x / 0o / 0b followed by at least one digit of that base. */
  predicate IsNonDecimal(s: string) {
    && |s| > 2 && s[0] == '0'
    && (|| (s[1] in {'x', 'X'} && forall i :: 2 <= i < |s| ==> IsHexDigit(s[i]))
        || (s[1] in {'o', 'O'} && forall i :: 2 <= i < |s| ==> IsOctalDigit(s[i]))
        || (s[1] in {'b', 'B'} && forall i :: 2 <= i < |s| ==> IsBinaryDigit(s[i])))
  }

  /** `DecimalDigits [. DecimalDigits?]` or `. DecimalDigits`: digits with at most one point. */
  predicate IsMantissa(m: string) {
    var k := IndexOf(m, '.');
    if k == -1 then Digits1(m)
    else AllDigits(m[..k]) && AllDigits(m[k + 1..]) && |m| > 1
  }

  /** ExponentPart after the e/E: SignedInteger. */
  predicate IsSignedInteger(x: string) {
    if |x| > 0 && x[0] in {'+', '-'} then Digits1(x[1..]) else Digits1(x)
  }

  /** StrUnsignedDecimalLiteral. */
  predicate IsUnsignedDecimal(u: string) {
    if u == "Infinity" then true
    else
      var e := IndexOf(u, 'e');
      var bigE := IndexOf(u, 'E');
      var k := if e == -1 then bigE else if bigE == -1 then e else if e < bigE then e else bigE;
      if k == -1 then IsMantissa(u)
      else IsMantissa(u[..k]) && IsSignedInteger(u[k + 1..])
  }

  /** StrDecimalLiteral: an optional sign, then an unsigned decimal. */
  predicate IsDecimal(t: string) {
    if |t| > 0 && t[0] in {'+', '-'} then IsUnsignedDecimal(t[1..]) else IsUnsignedDecimal(t)
  }

  /** `!isNaN(Number(s))`: blank text reads as 0, anything else must be a numeric literal. */
  predicate JsNumeric(s: string) {
    var t := TrimEnd(TrimStart(s));
    t == "" || IsNonDecimal(t) || IsDecimal(t)
  }

  // ---- the check ---------------------------------------------------------------

  /** The check as written: length 11, leading '0', and `!isNaN(Number(phone))`. */
  predicate ValidPhoneAsWritten(phone: string) {
    |phone| == 11 && phone[0] == '0' && JsNumeric(phone)
  }

  /** The check the page's prompt describes: eleven decimal digits starting with '0'. */
  predicate ValidPhone(phone: string) {
    |phone| == 11 && phone[0] == '0' && AllDigits(phone)
  }

  /** Every string of decimal digits is a JavaScript number. */
  lemma DigitsAreNumeric(s: string)
    requires Digits1(s)
    ensures JsNumeric(s)
  {
    assert s[0] !in {'+', '-'};
    assert IsDigit(s[0]) && !IsJsSpace(s[0]);
    assert TrimStart(s) == s;
    assert IsDigit(s[|s| - 1]) && !IsJsSpace(s[|s| - 1]);
    assert TrimEnd(s) == s;
    assert s != "Infinity";
    assert IndexOf(s, 'e') == -1 && IndexOf(s, 'E') == -1 && IndexOf(s, '.') == -1 by {
      assert forall i :: 0 <= i < |s| ==> s[i] != 'e' && s[i] != 'E' && s[i] != '.';
    }
  }

  /** Both forms accept only eleven-character strings with a leading '0'. */
  lemma AcceptedShape(phone: string)
    ensures ValidPhone(phone) ==> |phone| == 11 && phone[0] == '0'
    ensures ValidPhoneAsWritten(phone) ==> |phone| == 11 && phone[0] == '0'
  {
  }

  /** Every number the intended check accepts is also accepted as written. */
  lemma ValidPhoneAccepted(phone: string)
    requires ValidPhone(phone)
    ensures ValidPhoneAsWritten(phone)
  {
    DigitsAreNumeric(phone);
  }

  /** The check as written lets a hexadecimal literal through: "0x123456789" is not a phone number. */
  lemma HexNumberAccepted()
    ensures ValidPhoneAsWritten("0x123456789")
    ensures !ValidPhone("0x123456789")
  {
    var s := "0x123456789";
    assert !IsJsSpace(s[0]) && !IsJsSpace(s[|s| - 1]);
    assert TrimStart(s) == s;
    assert TrimEnd(s) == s;
    assert IsNonDecimal(s);
    assert !IsDigit(s[1]);
  }

  /** ... and so does a decimal point ... */
  lemma DecimalPointAccepted()
    ensures ValidPhoneAsWritten("01234.56789") && !ValidPhone("01234.56789")
  {
    var d := "01234.56789";
    assert !IsJsSpace(d[0]) && !IsJsSpace(d[|d| - 1]);
    assert TrimStart(d) == d && TrimEnd(d) == d;
    DecimalPointMantissa(d);
    assert IsDecimal(d);
    assert !IsDigit(d[5]);
  }

  /** "01234.56789" is an unsigned decimal literal without exponent. */
  lemma DecimalPointMantissa(d: string)
    requires d == "01234.56789"
    ensures IndexOf(d, 'e') == -1 && IndexOf(d, 'E') == -1 && IsMantissa(d)
  {
    IndexOfAbsent(d, 'e');
    IndexOfAbsent(d, 'E');
    var p, q := d[..5], d[6..];
    assert p == "01234" && q == "56789" && d[5] == '.';
    assert forall i :: 0 <= i < 5 ==> d[i] == p[i];
    IndexOfAt(d, '.', 5);
    assert AllDigits(p) && AllDigits(q);
  }

  lemma {:induction false} IndexOfAt(s: string, c: char, k: nat)
    requires k < |s| && s[k] == c
    requires forall i :: 0 <= i < k ==> s[i] != c
    ensures IndexOf(s, c) == k
  {
    if k > 0 {
      IndexOfAt(s[1..], c, k - 1);
    }
  }

  lemma IndexOfAbsent(s: string, c: char)
    requires forall i :: 0 <= i < |s| ==> s[i] != c
    ensures IndexOf(s, c) == -1
  {
  }

  /** ... and trailing white space. */
  lemma TrailingSpaceAccepted()
    ensures ValidPhoneAsWritten("0123456789 ") && !ValidPhone("0123456789 ")
  {
    var w := "0123456789 ";
    var v := "0123456789";
    assert !IsJsSpace(w[0]);
    assert TrimStart(w) == w;
    assert w[..10] == v;
    assert IsJsSpace(w[10]) && !IsJsSpace(v[9]);
    assert TrimEnd(v) == v;
    assert TrimEnd(w) == v;
    DigitsAreNumeric(v);
    assert !IsDigit(w[10]);
  }
}

=== FILE: session.dfy ===
/**
 * The agent page's session state machine: joining the media channel,
 * starting and stopping the remote agent, the heartbeat that keeps it
 * alive, the one-second countdown, session expiry (HTTP 440), and the
 * event callbacks that fill the transcript, metric and remote-user lists.
 * Every asynchronous handler is one atomic step; server replies are inputs.
 */
module Session {
  import opened Wrappers
  import Transcript
  import Countdown
  import Metrics
  import Json

  /** Credentials of the media channel, as returned by the channel lookup. */
  datatype ChannelInfo = ChannelInfo(channelName: string, appId: string, token: string, uid: int)

  datatype State = State(
    routeAgentId: string,             // the `:agentId` route parameter ("" when absent)
    channelInfo: Option<ChannelInfo>,
    joined: bool,
    started: bool,
    agentId: Option<string>,          // the `convoAgentId` ref: None for null, else the id the server returned
    heartbeatRunning: bool,           // the 8 s heartbeat and 1 s timer intervals are set
    remaining: Option<int>,           // seconds left before the idle timeout
    remoteUsers: seq<int>,            // uids of remote users in the channel
    metrics: seq<Metrics.MetricMessage>,
    transcripts: seq<Transcript.Message>,
    usageDialogOpen: bool             // the "session expired" dialog has been opened
  )

  /** The state right after the page is mounted. */
  function Initial(routeAgentId: string, channelInfo: Option<ChannelInfo>): (s: State)
    ensures Inv(s) && !s.joined && !s.started && s.remaining.None?
  {
    State(routeAgentId, channelInfo, false, false, None, false, None, [], [], [], false)
  }

  /** The outcome of an HTTP call: a reply, or an error with an optional status code. */
  datatype Reply<T> = Ok(value: T) | Failed(status: Option<int>)

  /** The session-expired status the backend uses. */
  const SessionExpired: int := 440

  predicate IsExpiry<T>(r: Reply<T>) {
    r.Failed? && r.status == Some(SessionExpired)
  }

  datatype Event =
    | Join(ok: bool)                        // joinChannel: the SDK join succeeded or threw
    | Start(startReply: Reply<string>)        // startAgent: the returned agent id
    | Heartbeat(beatReply: Reply<int>)        // sendHeartbeat: `secondsRemaining`
    | Tick                                  // the 1 s timer
    | Stop(ok: bool)                        // stopAgent
    | Leave                                 // leaveChannel
    | Timeout                               // handleTimeout
    | UserJoined(uid: int)
    | UserLeft(uid: int)
    | Metric(m: Metrics.MetricMessage)
    | Message(msg: Transcript.Message)

  // ---- the handlers -------------------------------------------------------

  /** stopHeartbeat: clear both intervals and forget the remaining time. */
  function StopHeartbeat(s: State): (r: State)
    ensures !r.heartbeatRunning && r.remaining.None?
    ensures r.(heartbeatRunning := s.heartbeatRunning, remaining := s.remaining) == s
  {
    s.(heartbeatRunning := false, remaining := None)
  }

  /** leaveChannel: leave the channel and reset everything except the transcript. */
  function LeaveChannel(s: State): (r: State)
    ensures !r.joined && !r.started && r.agentId.None?
    ensures r.remoteUsers == [] && r.metrics == [] && r.remaining.None? && !r.heartbeatRunning
    ensures r.transcripts == s.transcripts && r.channelInfo == s.channelInfo
    ensures r.usageDialogOpen == s.usageDialogOpen
  {
    StopHeartbeat(s.(joined := false, started := false, remoteUsers := [], metrics := []))
      .(agentId := None)
  }

  /** handleTimeout: the session expired; stop everything and open the usage dialog. */
  function HandleTimeout(s: State): (r: State)
    ensures !r.joined && !r.started && r.agentId.None? && !r.heartbeatRunning
    ensures r.remaining.None? && r.remoteUsers == [] && r.metrics == []
    ensures r.transcripts == s.transcripts && r.usageDialogOpen
  {
    LeaveChannel(StopHeartbeat(s)).(started := false, agentId := None, usageDialogOpen := true)
  }

  /** Whether the `convoAgentId` ref passes the handlers' `!convoAgentId.current` guard: set and non-empty. */
  predicate Held(s: State) {
    s.agentId.Some? && s.agentId.value != ""
  }

  /** startAgent: needs the route id and channel credentials; a reply starts the heartbeat. */
  function StartAgent(s: State, reply: Reply<string>): (r: State)
    ensures (s.routeAgentId == "" || s.channelInfo.None?) ==> r == s
    ensures s.routeAgentId != "" && s.channelInfo.Some? && reply.Ok? ==>
      r.started && r.agentId == Some(reply.value) && r.heartbeatRunning
      && r.remaining == s.remaining && r.joined == s.joined
    ensures s.routeAgentId != "" && s.channelInfo.Some? && IsExpiry(reply) ==> r == HandleTimeout(s)
    ensures reply.Failed? && !IsExpiry(reply) ==> r == s
  {
    if s.routeAgentId == "" || s.channelInfo.None? then s
    else match reply
      case Ok(id) => s.(agentId := Some(id), started := true, heartbeatRunning := true)
      case Failed(_) => if IsExpiry(reply) then HandleTimeout(s) else s
  }

  /** sendHeartbeat: only with a held agent id; the reply sets the remaining time. */
  function SendHeartbeat(s: State, reply: Reply<int>): (r: State)
    ensures !Held(s) ==> r == s
    ensures Held(s) && reply.Ok? ==> r == s.(remaining := Some(reply.value))
    ensures Held(s) && IsExpiry(reply) ==> r == HandleTimeout(s)
    ensures reply.Failed? && !IsExpiry(reply) ==> r == s
  {
    if !Held(s) then s
    else match reply
      case Ok(secondsRemaining) => s.(remaining := Some(secondsRemaining))
      case Failed(_) => if IsExpiry(reply) then HandleTimeout(s) else s
  }

  /** The 1 s timer: fires only while the heartbeat intervals are set. */
  function TimerTick(s: State): (r: State)
    ensures !s.heartbeatRunning ==> r == s
    ensures s.heartbeatRunning ==> r.remaining.Some? && r.remaining.value >= 0
    ensures s.heartbeatRunning && s.remaining.Some? && s.remaining.value > 0 ==>
      r.remaining == Some(s.remaining.value - 1)
    ensures r.(remaining := s.remaining) == s
  {
    if s.heartbeatRunning then s.(remaining := Some(Countdown.Tick(s.remaining))) else s
  }

  /** stopAgent: only with a held agent id; a failed request changes nothing. */
  function StopAgent(s: State, ok: bool): (r: State)
    ensures !Held(s) || !ok ==> r == s
    ensures Held(s) && ok ==>
      !r.started && r.agentId.None? && !r.heartbeatRunning && r.remaining.None? && r.joined == s.joined
  {
    if !Held(s) || !ok then s
    else StopHeartbeat(s.(started := false)).(agentId := None)
  }

  /** joinChannel: needs channel credentials; an SDK failure is only logged. */
  function JoinChannel(s: State, ok: bool): (r: State)
    ensures r.joined <==> s.joined || (s.channelInfo.Some? && ok)
    ensures r.(joined := s.joined) == s
  {
    if s.channelInfo.Some? && ok then s.(joined := true) else s
  }

  /** One event applied to the session. */
  function Step(s: State, e: Event): State {
    match e
    case Join(ok) => JoinChannel(s, ok)
    case Start(reply) => StartAgent(s, reply)
    case Heartbeat(reply) => SendHeartbeat(s, reply)
    case Tick => TimerTick(s)
    case Stop(ok) => StopAgent(s, ok)
    case Leave => LeaveChannel(s)
    case Timeout => HandleTimeout(s)
    case UserJoined(uid) => s.(remoteUsers := s.remoteUsers + [uid])
    case UserLeft(uid) => s.(remoteUsers := RemoveUid(s.remoteUsers, uid))
    case Metric(m) => s.(metrics := s.metrics + [m])
    case Message(msg) => s.(transcripts := Transcript.Merge(s.transcripts, msg))
  }

  /** `prev.filter(user => user.uid !== uid)`: the other users, in order, each as often as before. */
  function RemoveUid(us: seq<int>, uid: int): (r: seq<int>)
    ensures uid !in r
    ensures forall u :: u in r <==> u in us && u != uid
    ensures multiset(r) == multiset(us)[uid := 0]
    ensures |r| <= |us|
  {
    if |us| == 0 then []
    else
      assert us == [us[0]] + us[1..];
      if us[0] == uid then RemoveUid(us[1..], uid)
      else [us[0]] + RemoveUid(us[1..], uid)
  }

  /** Filtering a concatenation filters each part: the relative order of the other users is kept. */
  lemma {:induction false} RemoveUidAppend(a: seq<int>, b: seq<int>, uid: int)
    ensures RemoveUid(a + b, uid) == RemoveUid(a, uid) + RemoveUid(b, uid)
  {
    if |a| > 0 {
      assert (a + b)[1..] == a[1..] + b;
      RemoveUidAppend(a[1..], b, uid);
    } else {
      assert a + b == b;
    }
  }

  /** handleEndConversation: stop the agent, then leave the channel. */
  function EndConversation(s: State, stopOk: bool): (r: State)
    ensures !r.joined && !r.started && r.agentId.None? && r.remaining.None?
    ensures r.transcripts == s.transcripts
  {
    LeaveChannel(StopAgent(s, stopOk))
  }

  // ---- the session invariant ---------------------------------------------

  /**
   * The `convoAgentId` ref is set (non-null, possibly empty) exactly when
   * the page believes it started an agent and exactly when the heartbeat
   * intervals are set; a remaining time is only known while they are set.
   */
  predicate Inv(s: State) {
    && (s.started <==> s.agentId.Some?)
    && (s.heartbeatRunning <==> s.agentId.Some?)
    && (s.remaining.Some? ==> s.heartbeatRunning)
  }

  /** Every event keeps the invariant. */
  lemma StepPreservesInv(s: State, e: Event)
    requires Inv(s)
    ensures Inv(Step(s, e))
  {
  }

  /** The invariant holds after any sequence of events from the initial state. */
  function Run(s: State, es: seq<Event>): State
    decreases |es|
  {
    if |es| == 0 then s else Run(Step(s, es[0]), es[1..])
  }

  lemma {:induction false} RunPreservesInv(s: State, es: seq<Event>)
    requires Inv(s)
    ensures Inv(Run(s, es))
    decreases |es|
  {
    if |es| > 0 {
      StepPreservesInv(s, es[0]);
      RunPreservesInv(Step(s, es[0]), es[1..]);
    }
  }

  /** The countdown is visible only while an agent is running. */
  lemma CountdownOnlyWhileRunning(s: State)
    requires Inv(s)
    ensures Countdown.HeaderCountdown(s.started, s.remaining).Some? ==> s.agentId.Some? && s.heartbeatRunning
  {
  }

  /**
   * A start whose reply carries an empty agent id leaves the page started
   * with the intervals running, but the heartbeat and the stop request both
   * return early on the falsy id, so only leaving the channel ends it.
   */
  lemma EmptyAgentIdIsStuck(s: State, beat: Reply<int>)
    requires s.routeAgentId != "" && s.channelInfo.Some?
    ensures var t := StartAgent(s, Ok(""));
      && t.started && t.heartbeatRunning && !Held(t)
      && SendHeartbeat(t, beat) == t
      && StopAgent(t, true) == t
      && !LeaveChannel(t).started
  {
  }

  /** A heartbeat or a start that expires ends in the same state as a timeout. */
  lemma ExpiryIsTimeout(s: State)
    requires Held(s) && s.routeAgentId != "" && s.channelInfo.Some?
    ensures SendHeartbeat(s, Failed(Some(SessionExpired))) == HandleTimeout(s)
    ensures StartAgent(s, Failed(Some(SessionExpired))) == HandleTimeout(s)
  {
  }

  // ---- page layout ----------------------------------------------------------

  datatype Layout =
    | Default | MetadataTranscript | AvatarTranscript | AvatarLandscapeTranscript
    | SipCallInbound | SipCallOutbound

  datatype Grid = ThreeColumns | TwoColumns | SingleColumn

  /** The layouts that bring their own side panel. */
  predicate HasSidePanel(layout: Option<Layout>) {
    layout == Some(MetadataTranscript) || layout == Some(AvatarTranscript)
  }

  /** The grid of the agent page: one column per visible panel. */
  function GridFor(showTranscripts: bool, layout: Option<Layout>): (g: Grid)
    ensures g == ThreeColumns <==> showTranscripts && HasSidePanel(layout)
    ensures g == TwoColumns <==> showTranscripts != HasSidePanel(layout)
    ensures g == SingleColumn <==> !showTranscripts && !HasSidePanel(layout)
  {
    if showTranscripts && HasSidePanel(layout) then ThreeColumns
    else if showTranscripts || HasSidePanel(layout) then TwoColumns
    else SingleColumn
  }

  /** The request body of startAgent: custom agents send their properties, others a language. */
  datatype StartRequest =
    | CustomStart(channelName: string, properties: Json.Value)
    | StandardStart(channelName: string, languageCode: string)

  /** `customProperties` is the editor's record, None while it is still null. */
  function StartRequestFor(isCustom: bool, customProperties: Option<Json.Value>, channel: ChannelInfo,
                           selectedLanguage: Option<string>): (q: StartRequest)
    ensures q.channelName == channel.channelName
    ensures q.CustomStart? <==> isCustom && customProperties.Some?
    ensures q.CustomStart? ==> q.properties == customProperties.value
    ensures q.StandardStart? ==> q.languageCode == selectedLanguage.GetOr("")
  {
    if isCustom && customProperties.Some? then CustomStart(channel.channelName, customProperties.value)
    else StandardStart(channel.channelName, selectedLanguage.GetOr(""))
  }
}

=== FILE: sip_events.dfy ===
/**
 * What the SIP call pages receive from the 2 s buffer poll: the server's
 * call-event log and, for inbound calls, the media platform's lifecycle
 * events. Only the first entry of each list is ever examined.
 */
module SipEvents {
  import opened Wrappers
  import Session

  /** One entry of `bufferLogs`; absent text fields read as "". */
  datatype BufferEvent = BufferEvent(
    direction: string,   // "inbound" / "outbound"
    event: string,       // "ringing", "call_answered", "agora_bridge_start", ...
    eventId: string,
    from: string,        // the caller's number (inbound "ringing")
    channel: string      // the media channel of the bridged call
  )

  /** One entry of `agoraLCEvents`. */
  datatype LcEvent = LcEvent(state: string, channel: string)

  datatype PollResult = PollResult(bufferLogs: seq<BufferEvent>, lcEvents: seq<LcEvent>)

  /** The SIP channel lookup (`getChannelInfoForSip`): credentials, or None when it throws. */
  type Lookup = string -> Option<Session.ChannelInfo>

  /** The event a poll examines, if any: the head of `bufferLogs`. */
  function Latest(p: PollResult): (e: Option<BufferEvent>)
    ensures e.Some? <==> |p.bufferLogs| > 0
    ensures e.Some? ==> e.value == p.bufferLogs[0]
  {
    if |p.bufferLogs| > 0 then Some(p.bufferLogs[0]) else None
  }
}

=== FILE: sip_inbound.dfy ===
/**
 * The inbound SIP call page: the call state is mirrored from the polled
 * server buffer (direction "inbound", or any "transfer_call"), de-duplicated
 * by event id, and then overridden by the platform's lifecycle event.
 */
module SipInbound {
  import opened Wrappers
  import Session
  import opened SipEvents

  datatype CallState = Idle | Ringing | Connected | Disconnected | Error | Transferred

  datatype State = State(
    call: CallState,
    lastEventId: Option<string>,
    joined: bool,
    callerId: Option<string>,
    channelInfo: Option<Session.ChannelInfo>
  )

  const Initial: State := State(Idle, None, false, None, None)

  /** Whether the head event is addressed to this page at all. */
  predicate Relevant(e: BufferEvent) {
    e.direction == "inbound" || e.event == "transfer_call"
  }

  /**
   * Fetch the channel credentials and join. Joining itself never reports an
   * error (joinChannel logs and swallows it), so only a failed lookup leads
   * to ERROR.
   */
  function Connect(s: State, channel: string, lookup: Lookup): (r: State)
    ensures lookup(channel).None? ==> r == s.(call := Error)
    ensures lookup(channel).Some? ==> r == s.(channelInfo := lookup(channel), joined := true)
  {
    match lookup(channel)
    case None => s.(call := Error)
    case Some(info) => s.(channelInfo := Some(info), joined := true)
  }

  /** The buffer event's effect on the call state (after its id was recorded). */
  function ApplyBuffer(s: State, e: BufferEvent, lookup: Lookup): (r: State)
    ensures r.lastEventId == s.lastEventId
    ensures e.event == "ringing" ==> r == s.(call := Ringing, callerId := Some(e.from))
    ensures e.event == "transfer_call" ==> r == s.(call := Transferred)
    ensures e.event in {"agora_bridge_start", "call_initiated"} ==>
      r.call in {Connected, Error} && (r.call == Error <==> lookup(e.channel).None?)
      && (r.call == Connected ==> r.joined && r.channelInfo == lookup(e.channel))
    ensures e.event in {"agora_bridge_end", "call_hangup"} ==> r == s.(call := Disconnected, joined := false)
    ensures !Recognised(e.event) ==> r == s
  {
    if e.event == "ringing" then s.(call := Ringing, callerId := Some(e.from))
    else if e.event == "transfer_call" then s.(call := Transferred)
    else if e.event == "agora_bridge_start" || e.event == "call_initiated" then
      Connect(s.(call := Connected), e.channel, lookup)
    else if e.event == "agora_bridge_end" || e.event == "call_hangup" then
      s.(call := Disconnected, joined := false)
    else s
  }

  predicate Recognised(event: string) {
    event in {"ringing", "transfer_call", "agora_bridge_start", "call_initiated", "agora_bridge_end", "call_hangup"}
  }

  /** tryToJoinChannel: nothing to do when already joined or without a channel name. */
  function TryToJoin(s: State, channel: string, lookup: Lookup): (r: State)
    ensures s.joined || channel == "" ==> r == s
    ensures !s.joined && channel != "" && lookup(channel).None? ==> r == s.(call := Error)
    ensures !s.joined && channel != "" && lookup(channel).Some? ==>
      r.joined && r.call == s.call && r.channelInfo == lookup(channel)
  {
    if s.joined || channel == "" then s else Connect(s, channel, lookup)
  }

  /** The lifecycle event's effect; it runs after the buffer event, so it wins. */
  function ApplyLc(s: State, lcs: seq<LcEvent>, lookup: Lookup): (r: State)
    ensures |lcs| == 0 ==> r == s
    ensures r.lastEventId == s.lastEventId && r.callerId == s.callerId
    ensures |lcs| > 0 && lcs[0].state == "TRANSFERED" ==> r == s.(call := Transferred)
    // a hang-up does not leave the channel
    ensures |lcs| > 0 && lcs[0].state == "HANGUP" ==> r == s.(call := Disconnected)
    ensures |lcs| > 0 && lcs[0].state == "START" ==> r == TryToJoin(s.(call := Ringing), lcs[0].channel, lookup)
    ensures |lcs| > 0 && lcs[0].state == "ANSWERED" ==> r == TryToJoin(s.(call := Connected), lcs[0].channel, lookup)
    ensures |lcs| > 0 && lcs[0].state !in {"START", "ANSWERED", "TRANSFERED", "HANGUP"} ==> r == s
  {
    if |lcs| == 0 then s
    else
      var lc := lcs[0];
      if lc.state == "START" then TryToJoin(s.(call := Ringing), lc.channel, lookup)
      else if lc.state == "ANSWERED" then TryToJoin(s.(call := Connected), lc.channel, lookup)
      else if lc.state == "TRANSFERED" then s.(call := Transferred)
      else if lc.state == "HANGUP" then s.(call := Disconnected)
      else s
  }

  /**
   * One poll (getBuffer). An irrelevant or already-seen head event abandons
   * the whole poll, lifecycle part included; otherwise its id is recorded
   * before its effect, and the lifecycle event is applied last.
   */
  function Poll(s: State, p: PollResult, lookup: Lookup): (r: State)
    ensures |p.bufferLogs| > 0 && !Relevant(p.bufferLogs[0]) ==> r == s
    ensures |p.bufferLogs| > 0 && s.lastEventId == Some(p.bufferLogs[0].eventId) ==> r == s
    ensures |p.bufferLogs| > 0 && Relevant(p.bufferLogs[0]) ==> r.lastEventId == Some(p.bufferLogs[0].eventId)
    ensures |p.bufferLogs| == 0 ==> r.lastEventId == s.lastEventId
  {
    match Latest(p)
    case None => ApplyLc(s, p.lcEvents, lookup)
    case Some(e) =>
      if !Relevant(e) then s
      else if s.lastEventId == Some(e.eventId) then s
      else ApplyLc(ApplyBuffer(s.(lastEventId := Some(e.eventId)), e, lookup), p.lcEvents, lookup)
  }

  /** A new, unrecognised event leaves the call untouched but still records its id. */
  lemma UnrecognisedRecordsId(s: State, e: BufferEvent, lookup: Lookup)
    requires Relevant(e) && !Recognised(e.event) && s.lastEventId != Some(e.eventId)
    ensures Poll(s, PollResult([e], []), lookup) == s.(lastEventId := Some(e.eventId))
  {
  }

  /** Lifecycle events are not de-duplicated, yet applying one twice is the same as once. */
  lemma ApplyLcIdempotent(s: State, lcs: seq<LcEvent>, lookup: Lookup)
    ensures ApplyLc(ApplyLc(s, lcs, lookup), lcs, lookup) == ApplyLc(s, lcs, lookup)
  {
  }

  /** Receiving the same poll result twice is the same as receiving it once. */
  lemma PollIdempotent(s: State, p: PollResult, lookup: Lookup)
    ensures Poll(Poll(s, p, lookup), p, lookup) == Poll(s, p, lookup)
  {
    if |p.bufferLogs| == 0 {
      ApplyLcIdempotent(s, p.lcEvents, lookup);
    }
  }

  /**
   * Whatever the buffer event did, a recognised lifecycle event decides the
   * call state at the end of the poll (ERROR only from a failed join attempt).
   */
  lemma LcEventWins(s: State, p: PollResult, lookup: Lookup)
    requires |p.lcEvents| > 0
    requires |p.bufferLogs| == 0 || (Relevant(p.bufferLogs[0]) && s.lastEventId != Some(p.bufferLogs[0].eventId))
    ensures p.lcEvents[0].state == "START" ==> Poll(s, p, lookup).call in {Ringing, Error}
    ensures p.lcEvents[0].state == "ANSWERED" ==> Poll(s, p, lookup).call in {Connected, Error}
    ensures p.lcEvents[0].state == "TRANSFERED" ==> Poll(s, p, lookup).call == Transferred
    ensures p.lcEvents[0].state == "HANGUP" ==> Poll(s, p, lookup).call == Disconnected
  {
  }
}

=== FILE: sip_outbound.dfy ===
/**
 * The outbound SIP call page: starting a call, and mirroring its progress
 * from the polled server buffer (direction "outbound", or any
 * "transfer_call"), de-duplicated by event id.
 */
module SipOutbound {
  import opened Wrappers
  import Session
  import opened SipEvents
  import PhoneNumber

  datatype CallState =
    | Idle | Initiated | Ringing | Connected | Disconnected | NotAnswered | Error | Transferred

  datatype State = State(
    call: CallState,
    lastEventId: Option<string>,
    joined: bool,
    polling: bool,                              // the 2 s buffer poll has been started
    channelInfo: Option<Session.ChannelInfo>
  )

  const Initial: State := State(Idle, None, false, false, None)

  predicate Relevant(e: BufferEvent) {
    e.direction == "outbound" || e.event == "transfer_call"
  }

  predicate Recognised(event: string) {
    event in {"call_ringing", "agora_bridge_start", "call_answered", "agora_bridge_end", "call_hangup", "transfer_call"}
  }

  /** The buffer event's effect on the call state (after its id was recorded). */
  function ApplyBuffer(s: State, e: BufferEvent, lookup: Lookup): (r: State)
    ensures r.lastEventId == s.lastEventId && r.polling == s.polling
    ensures e.event == "call_ringing" ==> r == s.(call := Ringing)
    ensures e.event in {"agora_bridge_start", "call_answered"} ==>
      (lookup(e.channel).None? ==> r == s.(call := Error))
      && (lookup(e.channel).Some? ==> r == s.(call := Connected, joined := true, channelInfo := lookup(e.channel)))
    ensures e.event in {"agora_bridge_end", "call_hangup"} ==> r == s.(call := Disconnected, joined := false)
    ensures e.event == "transfer_call" ==> r == s.(call := Transferred)
    ensures !Recognised(e.event) ==> r == s
  {
    if e.event == "call_ringing" then s.(call := Ringing)
    else if e.event == "agora_bridge_start" || e.event == "call_answered" then
      match lookup(e.channel)
      case None => s.(call := Error)
      case Some(info) => s.(call := Connected, channelInfo := Some(info), joined := true)
    else if e.event == "agora_bridge_end" || e.event == "call_hangup" then
      s.(call := Disconnected, joined := false)
    else if e.event == "transfer_call" then s.(call := Transferred)
    else s
  }

  /** One poll (getBuffer): irrelevant and repeated head events are ignored. */
  function Poll(s: State, p: PollResult, lookup: Lookup): (r: State)
    ensures |p.bufferLogs| == 0 ==> r == s
    ensures |p.bufferLogs| > 0 && !Relevant(p.bufferLogs[0]) ==> r == s
    ensures |p.bufferLogs| > 0 && s.lastEventId == Some(p.bufferLogs[0].eventId) ==> r == s
    ensures |p.bufferLogs| > 0 && Relevant(p.bufferLogs[0]) ==> r.lastEventId == Some(p.bufferLogs[0].eventId)
    ensures (|p.bufferLogs| > 0 && Relevant(p.bufferLogs[0]) && s.lastEventId != Some(p.bufferLogs[0].eventId)
             && !Recognised(p.bufferLogs[0].event)) ==> r == s.(lastEventId := Some(p.bufferLogs[0].eventId))
  {
    match Latest(p)
    case None => s
    case Some(e) =>
      if !Relevant(e) then s
      else if s.lastEventId == Some(e.eventId) then s
      else ApplyBuffer(s.(lastEventId := Some(e.eventId)), e, lookup)
  }

  /** Receiving the same poll result twice is the same as receiving it once. */
  lemma PollIdempotent(s: State, p: PollResult, lookup: Lookup)
    ensures Poll(Poll(s, p, lookup), p, lookup) == Poll(s, p, lookup)
  {
  }

  // ---- starting a call --------------------------------------------------------

  datatype SipCallData = SipCallData(success: Option<bool>)

  /** The start-call reply: the SIP leg's result (if reported) and this user's channel credentials. */
  datatype StartReply = StartReply(sipCallData: Option<SipCallData>, tokenData: Option<Session.ChannelInfo>)

  /** First half of startOutboundCall: INITIATED, and the buffer poll starts. */
  function BeginCall(s: State): (r: State)
    ensures r.call == Initiated && r.polling
    ensures r.(call := s.call, polling := s.polling) == s
  {
    s.(call := Initiated, polling := true)
  }

  /**
   * Second half: the reply (None when the request threw) decides the state.
   * Storing new credentials fires the page's `[channelInfo]` effect, which
   * joins the channel; `joinOk` is whether that SDK join succeeded.
   */
  function FinishCall(s: State, reply: Option<StartReply>, joinOk: bool): (r: State)
    ensures reply.None? ==> r == s.(call := Idle)
    ensures reply.Some? && reply.value.sipCallData.Some? && reply.value.sipCallData.value.success != Some(true)
            ==> r == s.(call := NotAnswered)
    ensures reply.Some? && (reply.value.sipCallData.None? || reply.value.sipCallData.value.success == Some(true))
            ==> r == s.(call := Connected, channelInfo := reply.value.tokenData,
                        joined := s.joined || (reply.value.tokenData.Some? && joinOk))
  {
    match reply
    case None => s.(call := Idle)
    case Some(rep) =>
      if rep.sipCallData.Some? && rep.sipCallData.value.success != Some(true) then s.(call := NotAnswered)
      else JoinEffect(s.(call := Connected, channelInfo := rep.tokenData), joinOk)
  }

  /** The `[channelInfo]` effect: with credentials, a successful SDK join marks the page joined. */
  function JoinEffect(s: State, joinOk: bool): (r: State)
    ensures r.joined <==> s.joined || (s.channelInfo.Some? && joinOk)
    ensures r.(joined := s.joined) == s
  {
    if s.channelInfo.Some? && joinOk then s.(joined := true) else s
  }

  /** startOutboundCall as one step. */
  function StartCall(s: State, reply: Option<StartReply>, joinOk: bool): (r: State)
    ensures r.polling
    ensures r.call in {Idle, NotAnswered, Connected}
    ensures r.call == NotAnswered ==> r.channelInfo == s.channelInfo && r.joined == s.joined
    ensures r.call == Idle ==> r.channelInfo == s.channelInfo && r.joined == s.joined
  {
    FinishCall(BeginCall(s), reply, joinOk)
  }

  /** The call button as written: the check at line 361 decides whether a call starts. */
  function InitiateCall(s: State, phone: string, reply: Option<StartReply>, joinOk: bool): (r: State)
    ensures !PhoneNumber.ValidPhoneAsWritten(phone) ==> r == s
    ensures PhoneNumber.ValidPhoneAsWritten(phone) ==> r == StartCall(s, reply, joinOk)
  {
    if PhoneNumber.ValidPhoneAsWritten(phone) then StartCall(s, reply, joinOk) else s
  }

  /** The call button with the corrected check: eleven decimal digits with a leading '0'. */
  function InitiateCallIntended(s: State, phone: string, reply: Option<StartReply>, joinOk: bool): (r: State)
    ensures !PhoneNumber.ValidPhone(phone) ==> r == s
    ensures PhoneNumber.ValidPhone(phone) ==> r == StartCall(s, reply, joinOk)
  {
    if PhoneNumber.ValidPhone(phone) then StartCall(s, reply, joinOk) else s
  }

  /** The two buttons agree on every real phone number; they differ only on what the correction rejects. */
  lemma InitiateCallAgrees(s: State, phone: string, reply: Option<StartReply>, joinOk: bool)
    ensures PhoneNumber.ValidPhone(phone) ==>
      InitiateCall(s, phone, reply, joinOk) == InitiateCallIntended(s, phone, reply, joinOk)
    ensures !PhoneNumber.ValidPhoneAsWritten(phone) ==>
      InitiateCall(s, phone, reply, joinOk) == InitiateCallIntended(s, phone, reply, joinOk)
  {
    if PhoneNumber.ValidPhone(phone) {
      PhoneNumber.ValidPhoneAccepted(phone);
    }
  }

  /** As written, the button starts a call for "0x123456789"; the corrected one does not. */
  lemma HexNumberStartsCall(s: State, reply: Option<StartReply>, joinOk: bool)
    ensures InitiateCall(s, "0x123456789", reply, joinOk) == StartCall(s, reply, joinOk)
    ensures InitiateCallIntended(s, "0x123456789", reply, joinOk) == s
  {
    PhoneNumber.HexNumberAccepted();
  }

  /**
   * A call that started and was then hung up: whatever the start reply, a
   * new outbound 'call_hangup' in the next poll ends it, out of the channel.
   */
  lemma StartThenHangup(s: State, reply: Option<StartReply>, joinOk: bool, e: BufferEvent, lookup: Lookup)
    requires e.event == "call_hangup" && e.direction == "outbound"
    requires s.lastEventId != Some(e.eventId)
    ensures var r := Poll(StartCall(s, reply, joinOk), PollResult([e], []), lookup);
      r.call == Disconnected && !r.joined && r.polling && r.lastEventId == Some(e.eventId)
  {
  }
}

=== FILE: text.dfy ===
/** Character classes and small string helpers shared by the other modules. */
module Text {

  predicate IsDigit(c: char) { '0' <= c <= '9' }

  predicate AllDigits(s: string) {
    forall i :: 0 <= i < |s| ==> IsDigit(s[i])
  }

  function DigitChar(d: nat): (c: char)
    requires d < 10
    ensures IsDigit(c)
  {
    ['0', '1', '2', '3', '4', '5', '6', '7', '8', '9'][d]
  }

  /** `String(n)` for a natural number: shortest decimal text. */
  function NatToString(n: nat): (s: string)
    ensures |s| >= 1 && AllDigits(s)
    ensures n < 10 <==> |s| == 1
    ensures n < 100 <==> |s| <= 2
  {
    if n < 10 then [DigitChar(n)] else NatToString(n / 10) + [DigitChar(n % 10)]
  }

  /** `String(i)` for any integer: a minus sign before the digits of |i|. */
  function IntToString(i: int): string {
    if i < 0 then "-" + NatToString(-i) else NatToString(i)
  }

  /** `String.prototype.toLowerCase` on ASCII letters; other characters are kept. */
  function ToLowerAscii(s: string): (r: string)
    ensures |r| == |s|
    ensures forall i :: 0 <= i < |s| ==> r[i] == LowerChar(s[i])
  {
    if |s| == 0 then "" else [LowerChar(s[0])] + ToLowerAscii(s[1..])
  }

  function LowerChar(c: char): (d: char)
    ensures 'A' <= c <= 'Z' ==> 'a' <= d <= 'z'
    ensures !('A' <= c <= 'Z') ==> d == c
  {
    if 'A' <= c <= 'Z' then (c as int - 'A' as int + 'a' as int) as char else c
  }

  /** The index of the first occurrence of `c`, if any. */
  function IndexOf(s: string, c: char): (r: int)
    ensures -1 <= r < |s|
    ensures r >= 0 ==> s[r] == c && c !in s[..r]
    ensures r == -1 ==> c !in s
  {
    if |s| == 0 then -1
    else if s[0] == c then 0
    else var k := IndexOf(s[1..], c); if k == -1 then -1 else k + 1
  }

  /** The total length of the parts. */
  function TotalLength(parts: seq<string>): nat {
    if |parts| == 0 then 0 else |parts[0]| + TotalLength(parts[1..])
  }

  /** `parts.join(sep)`: the parts in order, one separator between neighbours. */
  function Join(parts: seq<string>, sep: string): (r: string)
    ensures |parts| == 0 ==> r == ""
    ensures |parts| == 1 ==> r == parts[0]
    ensures |parts| >= 1 ==> |r| == TotalLength(parts) + (|parts| - 1) * |sep|
    ensures |parts| >= 2 ==> r[..|parts[0]| + |sep|] == parts[0] + sep
  {
    if |parts| == 0 then ""
    else if |parts| == 1 then parts[0]
    else parts[0] + sep + Join(parts[1..], sep)
  }

  /** The number of occurrences of `c` in `s`. */
  function Count(s: string, c: char): nat {
    if |s| == 0 then 0 else (if s[0] == c then 1 else 0) + Count(s[1..], c)
  }

  /** `s.split(c)`: the pieces between occurrences of `c`, always at least one. */
  function Split(s: string, c: char): (r: seq<string>)
    ensures |r| == Count(s, c) + 1
    ensures forall i :: 0 <= i < |r| ==> c !in r[i]
  {
    if |s| == 0 then [""]
    else
      var rest := Split(s[1..], c);
      if s[0] == c then [""] + rest
      else [[s[0]] + rest[0]] + rest[1..]
  }

  /** Joining the pieces of a split with the separator gives back the string. */
  lemma {:induction false} JoinSplit(s: string, c: char)
    ensures Join(Split(s, c), [c]) == s
  {
    if |s| > 0 {
      var rest := Split(s[1..], c);
      JoinSplit(s[1..], c);
      if s[0] == c {
        assert Split(s, c) == [""] + rest;
        assert ([""] + rest)[1..] == rest;
        assert s == [c] + s[1..];
      } else if |rest| == 1 {
        assert Split(s, c) == [[s[0]] + rest[0]];
        assert s == [s[0]] + s[1..];
      } else {
        var r := Split(s, c);
        assert r == [[s[0]] + rest[0]] + rest[1..];
        assert r[1..] == rest[1..];
        assert Join(rest, [c]) == rest[0] + [c] + Join(rest[1..], [c]);
        assert s == [s[0]] + s[1..];
      }
    }
  }

  /** Splitting a joined list of separator-free pieces gives back the pieces. */
  lemma {:induction false} SplitJoin(parts: seq<string>, c: char)
    requires |parts| >= 1
    requires forall i :: 0 <= i < |parts| ==> c !in parts[i]
    ensures Split(Join(parts, [c]), c) == parts
  {
    if |parts| == 1 {
      SplitPlain(parts[0], c);
    } else {
      SplitJoin(parts[1..], c);
      SplitAfter(parts[0], Join(parts[1..], [c]), c);
      assert [parts[0]] + parts[1..] == parts;
    }
  }

  lemma {:induction false} SplitPlain(p: string, c: char)
    requires c !in p
    ensures Split(p, c) == [p]
  {
    if |p| > 0 {
      SplitPlain(p[1..], c);
      assert p == [p[0]] + p[1..];
    }
  }

  lemma {:induction false} SplitAfter(p: string, t: string, c: char)
    requires c !in p
    ensures Split(p + [c] + t, c) == [p] + Split(t, c)
  {
    var s := p + [c] + t;
    if |p| == 0 {
      assert s == [c] + t && s[1..] == t;
    } else {
      SplitAfter(p[1..], t, c);
      assert s[1..] == p[1..] + [c] + t;
      assert s[0] == p[0];
      assert p == [p[0]] + p[1..];
    }
  }
}

=== FILE: transcript.dfy ===
/**
 * The transcript list of a conversation and the reducer that folds
 * progressive speech-recognition messages into it (the `onMessage`
 * callback, written identically in the three agent pages).
 */
module Transcript {

  /** One transcript fragment: who spoke, what was recognised, in which turn. */
  datatype Message = Message(speaker: string, transcription: string, turnId: int)

  /** Two messages belong to the same slot when turn and speaker agree. */
  predicate SameSlot(a: Message, b: Message) {
    a.turnId == b.turnId && a.speaker == b.speaker
  }

  /**
   * Fold one incoming message into the list: a refinement of the last
   * entry's slot replaces it, a repeat of the last text is dropped,
   * anything else is appended.
   */
  function Merge(prev: seq<Message>, m: Message): (r: seq<Message>)
    // an empty list receives the message
    ensures |prev| == 0 ==> r == [m]
    // a repeated text is dropped, whatever the slot
    ensures |prev| > 0 && prev[|prev| - 1].transcription == m.transcription ==> r == prev
    // a new text for the last slot replaces the last entry in place
    ensures |prev| > 0 && SameSlot(prev[|prev| - 1], m) && prev[|prev| - 1].transcription != m.transcription
            ==> |r| == |prev| && r[..|r| - 1] == prev[..|prev| - 1] && r[|r| - 1] == m
    // a new text for another slot is appended
    ensures |prev| > 0 && !SameSlot(prev[|prev| - 1], m) && prev[|prev| - 1].transcription != m.transcription
            ==> r == prev + [m]
    // the list never shrinks and grows by at most one
    ensures |prev| <= |r| <= |prev| + 1
    // earlier entries are never touched
    ensures |prev| > 0 ==> r[..|prev| - 1] == prev[..|prev| - 1]
  {
    if |prev| > 0 then
      var last := prev[|prev| - 1];
      if SameSlot(last, m) then
        if last.transcription == m.transcription then prev
        else prev[..|prev| - 1] + [m]
      else
        if last.transcription == m.transcription then prev
        else prev + [m]
    else
      prev + [m]
  }

  /** The transcript obtained by folding a stream of messages into an empty list. */
  function MergeAll(ms: seq<Message>): seq<Message> {
    if |ms| == 0 then [] else Merge(MergeAll(ms[..|ms| - 1]), ms[|ms| - 1])
  }

  /** Neighbouring entries of the list always belong to different slots. */
  predicate DistinctNeighbours(t: seq<Message>) {
    forall i :: 0 < i < |t| ==> !SameSlot(t[i - 1], t[i])
  }

  /** Merging the same message twice is the same as merging it once. */
  lemma MergeIdempotent(prev: seq<Message>, m: Message)
    ensures Merge(Merge(prev, m), m) == Merge(prev, m)
  {
  }

  /** After a merge the list is non-empty and its last entry carries the message's text. */
  lemma MergeLastText(prev: seq<Message>, m: Message)
    ensures |Merge(prev, m)| > 0
    ensures Merge(prev, m)[|Merge(prev, m)| - 1].transcription == m.transcription
  {
  }

  /** Merging keeps neighbouring entries in different slots. */
  lemma MergePreservesDistinctNeighbours(prev: seq<Message>, m: Message)
    requires DistinctNeighbours(prev)
    ensures DistinctNeighbours(Merge(prev, m))
  {
    var r := Merge(prev, m);
    if |prev| > 0 && SameSlot(prev[|prev| - 1], m) && prev[|prev| - 1].transcription != m.transcription {
      forall i | 0 < i < |r|
        ensures !SameSlot(r[i - 1], r[i])
      {
        if i == |r| - 1 {
          assert r[i] == m;
          assert r[i - 1] == prev[i - 1];
          assert !SameSlot(prev[i - 1], prev[i]);
        } else {
          assert r[i] == prev[i] && r[i - 1] == prev[i - 1];
        }
      }
    }
  }

  /**
   * Folding any stream of messages yields a list no longer than the stream,
   * whose neighbours are in different slots and whose entries all come from
   * the stream.
   */
  lemma {:induction false} MergeAllShape(ms: seq<Message>)
    ensures |MergeAll(ms)| <= |ms|
    ensures DistinctNeighbours(MergeAll(ms))
    ensures forall x :: x in MergeAll(ms) ==> x in ms
  {
    if |ms| > 0 {
      var init := ms[..|ms| - 1];
      MergeAllShape(init);
      MergePreservesDistinctNeighbours(MergeAll(init), ms[|ms| - 1]);
      var r := MergeAll(ms);
      forall x | x in r
        ensures x in ms
      {
        var k :| 0 <= k < |r| && r[k] == x;
        if k < |MergeAll(init)| && r[k] == MergeAll(init)[k] {
          assert x in MergeAll(init);
          assert x in init;
        } else {
          assert x == ms[|ms| - 1];
        }
      }
    }
  }
}

=== FILE: tts.dfy ===
/** The speech-synthesis section of the configuration editor. */
module Tts {
  import opened Wrappers
  import opened Json

  const DefaultMicrosoft := Obj(map[
    "vendor" := Str("microsoft"),
    "params" := Obj(map[
      "key" := Str("<your_microsoft_key>"), "region" := Str("eastus"),
      "voice_name" := Str("en-US-AndrewMultilingualNeural"),
      "speed" := Num(1.0), "volume" := Num(70.0), "sample_rate" := Num(24000.0)])])

  const DefaultElevenLabs := Obj(map[
    "vendor" := Str("elevenlabs"),
    "params" := Obj(map[
      "key" := Str("<YOUR_KEY>"), "model_id" := Str("eleven_flash_v2_5"),
      "voice_id" := Str("pNInz6obpgDQGcFmaJgB"), "sample_rate" := Num(24000.0), "speed" := Num(1.0)])])

  const DefaultCartesia := Obj(map[
    "vendor" := Str("cartesia"),
    "params" := Obj(map[
      "api_key" := Str("<your_cartesia_key>"), "model_id" := Str("sonic-2"),
      "voice" := Obj(map["mode" := Str("id"), "id" := Str("<voice_id>")])])])

  const DefaultOpenAi := Obj(map[
    "vendor" := Str("openai"),
    "params" := Obj(map[
      "api_key" := Str("<YOUR_KEY>"), "model" := Str("gpt-4o-mini-tts"), "voice" := Str("coral"),
      "instructions" := Str("Please use standard American English, natural tone, moderate pace, and steady intonation"),
      "speed" := Num(1.0)])])

  const DefaultHumeAi := Obj(map[
    "vendor" := Str("humeai"),
    "params" := Obj(map[
      "key" := Str("<YOUR_KEY>"), "voice_id" := Str("<YOUR_VOICE_ID>"), "provider" := Str("CUSTOM_VOICE"),
      "speed" := Num(1.0), "trailing_silence" := Num(0.35)])])

  const Vendors: set<string> := {"microsoft", "elevenlabs", "cartesia", "openai", "humeai"}

  /** The selected vendor name and the config the form edits. */
  datatype Form = Form(vendor: string, config: Value)

  /** The default a vendor choice selects; any unknown name falls back to Microsoft. */
  function DefaultFor(vendor: string): (cfg: Value)
    ensures cfg.Obj?
    ensures vendor in Vendors ==> Field(cfg, "vendor") == Some(Str(vendor))
    ensures vendor !in Vendors ==> cfg == DefaultMicrosoft
  {
    match vendor
    case "microsoft" => DefaultMicrosoft
    case "elevenlabs" => DefaultElevenLabs
    case "cartesia" => DefaultCartesia
    case "openai" => DefaultOpenAi
    case "humeai" => DefaultHumeAi
    case _ => DefaultMicrosoft
  }

  /**
   * handleTtsVendorChange: the selector keeps the chosen name, even an
   * unknown one, and the config is replaced wholesale.
   */
  function ChangeVendor(f: Form, vendor: string): (r: Form)
    ensures r.vendor == vendor && r.config == DefaultFor(vendor)
  {
    Form(vendor, DefaultFor(vendor))
  }

  /** After an unknown vendor the selector and the config disagree. */
  lemma UnknownVendorMismatch(f: Form, vendor: string)
    requires vendor !in Vendors
    ensures ChangeVendor(f, vendor).vendor == vendor
    ensures Field(ChangeVendor(f, vendor).config, "vendor") == Some(Str("microsoft"))
  {
  }

  /** Any single param input or slider: `params: {...params, [k]: v}`. */
  function EditParam(f: Form, k: string, v: Value): (r: Form)
    ensures r.vendor == f.vendor
    ensures Param(r.config, k) == Some(v)
    ensures forall k2 :: k2 != k ==> Param(r.config, k2) == Param(f.config, k2)
    ensures forall k2 :: k2 != "params" ==> Field(r.config, k2) == Field(f.config, k2)
  {
    f.(config := WithParam(f.config, k, v))
  }

  /** The Cartesia voice input always writes a voice of mode "id", whatever the voice was. */
  function EditCartesiaVoice(f: Form, id: string): (r: Form)
    ensures r.vendor == f.vendor
    ensures Param(r.config, "voice") == Some(Obj(map["mode" := Str("id"), "id" := Str(id)]))
    ensures forall k :: k != "voice" ==> Param(r.config, k) == Param(f.config, k)
  {
    EditParam(f, "voice", Obj(map["mode" := Str("id"), "id" := Str(id)]))
  }

  /** The voice id the Cartesia input shows: `params?.voice?.id || ''`. */
  function ShownCartesiaVoice(f: Form): string {
    StrOf(Some(Or(Prop(Param(f.config, "voice"), "id"), Str(""))))
  }

  lemma CartesiaVoiceShown(f: Form, id: string)
    ensures ShownCartesiaVoice(EditCartesiaVoice(f, id)) == id
  {
  }
}

=== FILE: wrappers.dfy ===
/** Option: a value that may be absent (the source's `null` / `undefined`). */
module Wrappers {

  datatype Option<+T> = None | Some(value: T) {

    /** The value if present, `default` otherwise. */
    function GetOr(default: T): T {
      match this
      case Some(v) => v
      case None => default
    }
  }
}
